=== FILE: README.md ===
# Hue-Horizon auction core in Dafny

Hue-Horizon is an art marketplace. Artists upload artworks, open time-limited
auctions on them, take bids, and hand the artwork to the winner. A sale can
also go through a checkout, whose completion the payment processor reports to a
webhook. This project models that core as pure functions over an immutable store:

- the auction finalization scheduler (`services/auctionScheduler.js`);
- auction creation, bidding on both bid routes, and the owner's manual finish
  (`routes/artwork.js`, `index.js`);
- the payment webhook and artwork deletion (`index.js`);
- the profile statistics, profile update and password change (`routes/user.js`);
- the dashboard auction card's time-left label, displayed bid, controls and bid
  dialog (`public/js/dashboard/components/auction.js`).

Modules:

- `JsValues`: the JavaScript value rules the handlers rely on. These are
  truthiness of ids and numbers, and `null` read as 0 in a numeric comparison.
- `Store`: the `artworks`, `auctions` and `artwork_transactions` tables. The
  auction table is a map keyed by the `artwork_id` column, so an artwork has at
  most one auction. It also holds the two ways the status write addresses a row.
- `Http`: status codes and reply payloads.
- `Scheduler`: one run of the finalization check.
  - The store's answers are parameters: whether the fetch fails, which writes
    are rejected, and the order in which rows come back.
  - Its effect is proved equal to an order-free reference definition,
    `Settled`, which says what happens to each auction on its own.
- `Bidding`: both bid routes, and the bid sequences they accept.
- `Finish`: the manual finish, and its agreement with the scheduler's step.
- `Creation`, `Webhook`, `Deletion`: the remaining store-writing handlers.
- `Profile`: the statistics endpoint (views total, charts, category
  distribution), the profile update and the password change.
- `AuctionCard`: the client-side card helpers. The time-left label is proved to
  read back as days and hours that bracket the remaining time. The card is
  connected to the server routes it calls.

Every store write, sign-in and signature check is a boolean parameter saying
whether it succeeds, or an `Option` that is `None` when it fails. The clock is a
parameter in milliseconds.

## Model

| member | source | states |
|---|---|---|
| Store.CompleteWritesAgree | services/auctionScheduler.js:71-74 | In a well-formed store, the scheduler's status write (keyed by auction id) and the manual finish's (keyed by artwork id) change the same single row in the same way. |
| Scheduler.Fetch | services/auctionScheduler.js:28-32 | The fetched batch is no longer than the listing, and each fetched row is a stored row that is `active` and whose end time is at or before now. |
| Scheduler.ProcessOne | services/auctionScheduler.js:49-81 | One loop iteration. It never adds or removes rows and never records a transaction. A rejected ownership write leaves the store untouched and skips the status write (`continue`). With no truthy bidder the owners are left alone. |
| Scheduler.ProcessAll | services/auctionScheduler.js:47-82 | Every fetched row gets its own log entry, in order, whatever happened to earlier rows. Row sets and transactions are preserved. |
| Scheduler.Tick | services/auctionScheduler.js:22-88 | A failed fetch, or a fetch that finds nothing due, changes nothing. Otherwise there is one step per due row. Row sets and transactions are preserved. |
| Scheduler.StepSettles | services/auctionScheduler.js:49-81 | Processing one more due row takes the store settled on a key set to the store settled on that set plus the row's key. |
| Scheduler.ProcessAllSettles | services/auctionScheduler.js:47-82 | The loop over the fetched rows yields exactly the reference store settled on the rows of the listing. |
| Scheduler.FetchFinds | services/auctionScheduler.js:28-32 | Every due row of the listing is in the fetched batch. |
| Scheduler.TickSettles | services/auctionScheduler.js:22-88 | With every row listed once, a tick equals the reference definition. Each due auction with a truthy bidder passes to that bidder, unless its transfer is rejected. Each due auction whose transfer is not rejected and whose status write lands is `completed`. Nothing else changes. |
| Scheduler.TickLeavesUndueAlone | services/auctionScheduler.js:28-32 | A row that is not both `active` and past its end time is not written, and neither is its artwork. |
| Scheduler.TickTransfersToWinner | services/auctionScheduler.js:53-64 | A due auction with a leading bidder and an accepted transfer ends with its artwork owned by that bidder. |
| Scheduler.TickRetriesFailedTransfer | services/auctionScheduler.js:59-63 | After a rejected transfer the auction stays `active` and its artwork keeps its owner. It is due again at every later tick. |
| Scheduler.TickClosesUnsold | services/auctionScheduler.js:66-74 | A due auction without a bidder keeps its artwork's owner and is `completed` when its status write lands. |
| Scheduler.TickIsolatesFailures | services/auctionScheduler.js:59-63 | Two ticks whose rejected writes agree about one auction leave that auction and its artwork identical. Failures on other rows do not reach it. |
| Scheduler.TickPreservesInvariants | services/auctionScheduler.js:22-88 | A tick keeps the store well formed, writes no `ended_early` status, and records no transaction. |
| Scheduler.ProcessOneIdempotent | services/auctionScheduler.js:53-74 | Running an auction's step a second time, fully successful, gives the same store as one successful run. |
| Bidding.PlaceBid | routes/artwork.js:391-496 | Answers 200 exactly when all of these hold: the auction exists; the deadline has not passed; the amount parses and is positive; the amount exceeds the leading bid (null counts as 0); the write succeeds. Each failure has its own answer, in the route's check order: 404 not found, 400 ended, 400 invalid amount, 400 too low, then 500 for a failed write. None of them changes the store. On success only that row's bid, bidder and timestamp change, and the leading bid strictly increases. |
| Bidding.PlaceBidLegacy | index.js:301-355 | Redirects to `/auction` (302) exactly when the row exists, the write succeeds, and the amount is either absent or above the leading bid. It answers 400 "bid too low" exactly when a given amount is at or below the leading bid. A missing row is a 500, and so is a failed write of an acceptable bid. Only bid and bidder are written. Without an amount, only the bidder changes. |
| Bidding.LegacyMissingAmountTakesLead | index.js:315-343 | A request with no amount is accepted and makes the caller the leading bidder at the unchanged leading bid. |
| Bidding.LegacyAcceptsWhatCurrentAccepts | index.js:328-343 | Every bid the current route accepts, the legacy route accepts too, with the same row contents except the timestamp. |
| Bidding.LegacyIgnoresDeadline | index.js:318-343 | Past the end time, a bid above the leading bid is refused by the current route but accepted by the legacy route. |
| Bidding.NullLeadIgnoresStartingBid | routes/artwork.js:427-433 | While `current_bid` is null, any positive bid before the deadline is accepted, whatever the starting bid. |
| Bidding.AcceptedBidsIncrease | routes/artwork.js:427-457 | Over any sequence of bid requests on one auction, the accepted amounts strictly increase. Each exceeds the starting leading bid, and the row ends holding the last accepted amount. No artwork changes, and no accepts means no change. |
| Finish.FinishAuction | routes/artwork.js:754-868 | A missing auction or artwork row gives 500 with no change. 403 `Unauthorized` exactly for a caller who is not the owner. 400 `NotReady` exactly when the owner asks before the deadline, with no live bid, and the status is not `ended_early`. 200 exactly when, in addition, the transfer (if there is a winner) and the status write succeed. On 200 only this auction's row changes, to `completed` with a new timestamp. The artwork's owner becomes the winner, if there is one, and none of the artwork's other columns change. Past the gate, a rejected transfer gives 500 and changes nothing. A failed status write after an accepted transfer gives 500, with the artwork already the winner's. With no winner, a failed status write gives 500 and changes nothing. No other artwork ever changes. |
| Finish.FinishMatchesSchedulerStep | routes/artwork.js:817-848 | Once past its gate, the route's writes equal the scheduler's step for the same row, with the same rejected writes. |
| Finish.FinishReopensCompleted | routes/artwork.js:799-806 | The route does not look for `completed`. An owner can finish an already completed auction again, and the artwork passes to the recorded bidder again. |
| Finish.BidsAfterEarlyFinish | routes/artwork.js:410-416 | After an early finish the bid route still accepts bids until the end time, because it checks only the deadline. |
| Creation.CreateAuction | routes/artwork.js:300-347 | 404 exactly when the caller does not own an existing artwork. 200 exactly when the artwork has no auction yet and the insert succeeds. For the owner, a failed insert gives 500. The new row has the starting bid as its leading bid, no bidder, status `active`, an end time `durationDays` days of `DayMillis` (86,400,000 ms) after now, the submitted buy-now price, and `updated_at` set to now. Nothing else changes. |
| Creation.CreatePreservesInvariants | routes/artwork.js:320-332 | With a fresh auction id the store stays well formed and without `ended_early`. |
| Creation.CreatedAuctionDueAtDeadline | routes/artwork.js:329 | A new auction is due for the scheduler from its end time on, and not before. |
| Creation.CreatedAuctionFloor | routes/artwork.js:325-326 | On a freshly created auction with a starting bid, no bid at or below that starting bid is accepted, at any time. Later bids only raise the floor, by Bidding.AcceptedBidsIncrease. |
| Webhook.HandleWebhook | index.js:38-142 | A missing secret gives 500; a bad signature gives 400. Any verified event gets 200. The store changes only for a paid `checkout.session.completed` with complete metadata and an accepted ownership write. Auctions never change. After an accepted ownership write, the sold artwork has the buyer as owner and `updated_at` set to now, with its other columns as they were; every other artwork is unchanged. Exactly one transaction is appended when the insert also succeeds; it matches the metadata, is dated now, and its amount is the total in cents divided by 100. |
| Webhook.PaidCheckoutTransfers | index.js:84-98 | A paid, verified checkout hands the artwork to the buyer and stamps its `updated_at` with now, changing none of its other columns. Every other artwork stays as it was. |
| Webhook.RecordImpliesTransfer | index.js:93-119 | A transaction row appears only after the ownership write succeeded. If the artwork exists it then belongs to that row's buyer. If it does not exist, the update matched no row, and the sale is still recorded. |
| Deletion.DeleteArtwork | index.js:208-282 | 404 exactly for a missing artwork; 403 exactly for a caller who is neither admin nor owner; 200 exactly when both deletes succeed. For a permitted caller, a failed delete gives 500. Auctions are deleted before the artwork: a failed auction delete changes nothing, and a failed artwork delete leaves the artwork without its auction. The artwork is never removed while its auction remains. Other auctions are kept. |
| Deletion.DeletePreservesInvariants | index.js:252-269 | A delete keeps the store well formed and only removes rows. |
| Profile.SumViews | routes/user.js:49 | The views total, a fold from the left with null counting as 0, equals the independent first-row-first sum `SumFront`. |
| Profile.SumViewsAppend | routes/user.js:49 | The views total of two row lists joined is the sum of their totals. |
| Profile.SumViewsBounds | routes/user.js:49 | Rows without a view count add nothing. With no negative counts, the total is non-negative. |
| Profile.DatePart | routes/user.js:67 | The chart date is the prefix of the timestamp whose length is 10, or the whole timestamp when it is shorter. |
| Profile.ViewsOverTime | routes/user.js:66-69 | One point per artwork row, in order, carrying its date and its views (0 when null). |
| Profile.FavoritesOverTime | routes/user.js:80-83 | One point of count 1 per favorite row, in order. |
| Profile.ViewsChartMatchesTotal | routes/user.js:49-69 | The views chart adds up to the views total of the same rows. |
| Profile.FavoritesChartMatchesTotal | routes/user.js:80-83 | The favorites chart adds up to the number of favorite rows. |
| Profile.CategoryDistribution | routes/user.js:93-102 | The `reduce` that builds the distribution. It has at most one entry per row, and is empty exactly when there are no rows. Its contents are stated by Profile.CategoryDistributionTallies. |
| Profile.CategoryDistributionTallies | routes/user.js:93-102 | The distribution has one entry per distinct category name, in order of first appearance. Each entry's count is the number of rows with that name. |
| Profile.CategoryDistributionTotal | routes/user.js:93-102 | The entries have pairwise distinct names and their counts sum to the number of rows. |
| Profile.DistributionSum | routes/user.js:93-102 | The counts of the distribution add up to the number of rows. |
| Profile.ProfileStats | routes/user.js:36-111 | Statistics exist exactly when none of the rethrowing queries failed. When they exist, they are: the artwork count; the views total, 0 when that query failed; the favorites count, 0 when that query failed; a views chart with one point per row of its own query, in order, adding up to those rows' views; a favorites chart with one point per row of its own query, in order, adding up to its row count; a category distribution that tallies the rows. The charts come from separate queries, so they need not match the two totals. |
| Profile.ChangePassword | routes/user.js:248-295 | 200 exactly when the two new passwords agree, are present, are at least 8 characters long, the current password signs in, and the update succeeds. The failures come in the route's order. A mismatch gives 400. A missing password gives 500, because `.length` throws. A short password gives 400. A failed sign-in gives 400 "current password is incorrect". A failed update gives 500. |
| Profile.ValidationPrecedesSignIn | routes/user.js:252-278 | A mismatched or short new password gets the same 400 whatever the sign-in and update would do. |
| Profile.UpdateProfile | routes/user.js:170-178 | The stored name becomes the submitted one when non-empty and otherwise keeps its value. Bio and location become the submitted values when non-empty and otherwise null. The avatar is untouched, and `updated_at` becomes now. |
| Profile.SubmitProfile | routes/user.js:159-245 | 200 exactly when the update succeeds. It then stores the row that UpdateProfile describes and echoes the stored name and the unchanged avatar. A failed update gives 500 and leaves the row as it was. |
| Profile.UpdateProfileIdempotent | routes/user.js:170-178 | Submitting the same form twice stores what submitting it once stores. |
| AuctionCard.Decimal | public/js/dashboard/components/auction.js:207-209 | A count is printed as digits with no leading zero, and it starts with `0` only when the count is 0. |
| AuctionCard.DecimalRoundTrip | public/js/dashboard/components/auction.js:207-209 | The printed decimal numeral of a count reads back as that count. |
| AuctionCard.DecimalOfParse | public/js/dashboard/components/auction.js:207-209 | Every numeral without a leading zero is the printed form of the number it denotes. Printing and reading are inverse on numerals. |
| AuctionCard.Classify | public/js/dashboard/components/auction.js:192-204 | The label's case: no end set exactly for a missing end, invalid exactly for an unparseable one, ended exactly when the end is at or before now, and otherwise a count of days and hours remaining. |
| AuctionCard.FormatTimeLeft | public/js/dashboard/components/auction.js:191-210 | Returns "No end time set" or "Invalid end date" for a missing or unparseable end. Returns "Auction ended" exactly when the end is at or before now. Otherwise the label starts with "Ending in ". |
| AuctionCard.CountdownNamesDays | public/js/dashboard/components/auction.js:206-209 | A countdown contains a `d` exactly when its day count is positive, because the hour count and its unit never spell one. |
| AuctionCard.DayPartIffWholeDay | public/js/dashboard/components/auction.js:201-209 | Before the deadline, the text after "Ending in " names a day count exactly when at least one whole day remains. |
| AuctionCard.CountdownReadsBack | public/js/dashboard/components/auction.js:206-209 | Both countdown shapes, `{d}d {h}h` and `{h}h`, read back as the day and hour counts they were written from. |
| AuctionCard.ReadsOnlyCountdowns | public/js/dashboard/components/auction.js:206-209 | A text reads back only when it is exactly the countdown of the counts it reads as. No leading zero and no `0d` part is accepted, so reading and writing are inverse. |
| AuctionCard.DaysHoursBracket | public/js/dashboard/components/auction.js:203-204 | The days and hours computed from a positive remaining time satisfy hours < 24, and days·24h + hours·1h ≤ remaining < days·24h + (hours+1)·1h. |
| AuctionCard.TimeLeftReadsBack | public/js/dashboard/components/auction.js:199-209 | Before the deadline, the label is exactly "Ending in " followed by the countdown of some days and hours. It reads back as those counts. The hours are below 24, and the counts bracket the remaining time to within the hour. |
| AuctionCard.CardControls | public/js/dashboard/components/auction.js:167-183 | Finish and Delete appear exactly when the signed-in id equals the artwork's owner. Otherwise Place Bid appears, and it passes the starting bid to the dialog. |
| AuctionCard.BidModal | public/js/dashboard/components/auction.js:212-216 | The dialog's minimum and initial value are both the offer it was given plus 1, with null counting as 0. |
| AuctionCard.DisplayedBid | public/js/dashboard/components/auction.js:157 | The card shows "No bids yet" exactly when neither the current bid nor the starting bid is a non-zero number. Otherwise it shows a non-zero amount that is one of the two, preferring the current bid. |
| AuctionCard.CardBeforeFirstBid | public/js/dashboard/components/auction.js:157 | A card for an auction just opened by the creation route shows its starting bid, or "No bids yet" when the starting bid is null or 0. |
| AuctionCard.FinishShownExactlyToOwner | public/js/dashboard/components/auction.js:167 | The card shows Finish to exactly the users whom the finish route does not refuse with 403. |
| AuctionCard.CardShowsAcceptedBid | public/js/dashboard/components/auction.js:157 | After the bid route accepts a bid, the card shows exactly that amount. |
| AuctionCard.SuggestedBidAcceptedIff | public/js/dashboard/components/auction.js:180 | Before the deadline, the dialog's suggested bid (starting bid + 1, null read as 0) is accepted exactly when it is positive and exceeds the leading bid. Once a bid has overtaken it, the suggestion is refused. A starting bid of -1 or less gives a suggestion the route refuses as invalid. |

## Left out

- Supabase, Stripe and JWT calls are not modelled. Each store or payment
  outcome is a boolean or `Option` parameter. Signature verification is reduced
  to its result, and sign-in to `currentOk`.
- One `now` stands for every `new Date()` read inside one handler or tick.
  The source reads the clock again for its `updated_at` writes
  (services/auctionScheduler.js:24 and :73, routes/artwork.js:800 and :839,
  routes/artwork.js:411 and :455). So `updated_at` equal to now in the
  contracts means the model's single clock, not a second reading.
- The cron timer is left out. A tick's
  clock and row order are parameters. Concurrent ticks and concurrent requests
  are not modelled.
- Money is `real` and time is whole milliseconds. Floating-point rounding,
  `Infinity` amounts and ISO timestamp parsing are not modelled. A parsed bid
  is `Some(x)`, or `None` for NaN.
- Bidding.PlaceBid: the route's second existence check and its read-back of the
  updated row are not modelled. In a sequential store they cannot fail where
  the first read succeeded. A failing read-back after the write is also not
  modelled.
- Bidding.PlaceBidLegacy: the amount is a number or absent. A string body
  is not modelled. JavaScript coerces it in the comparison. `current_bid` is a
  numeric column, so a numeric string is stored as a number, and a
  non-numeric one fails as a write error, which is `writeOk = false` here.
- Creation.CreateAuction: `durationDays` is an integer. A missing or
  fractional duration is not modelled. A second auction for the same artwork is
  answered with 500 and no write, because the store model holds one auction
  per artwork. In the database a second insert would add another row, which
  later breaks `.single()` reads.
- FormatTimeLeft: its own contract fixes the three fixed texts and the prefix
  of a countdown. What follows the prefix is stated by TimeLeftReadsBack and
  ReadsOnlyCountdowns: exactly the countdown of the whole days and hours left.
- Finish.FinishAuction: a read error other than a missing row is merged with
  the missing-row case; both give 500.
- Deletion.DeleteArtwork: the storage object removal is left out. It writes no
  row, and its failure is ignored.
- Profile.SubmitProfile: the avatar upload is left out. It writes only
  `avatar_url`, which this model leaves unchanged.
- Profile.ChangePassword: length is counted in characters, not in UTF-16 code
  units.
- Profile.ProfileStats: the user row read and the `GET /profile/:userId`
  variant are not modelled. `getPeriodText` and the chart rendering are not
  modelled either.
- Listing endpoints such as `/my-auctions`, `/marketplace` and the admin lists
  only read, so they are not modelled. The card takes `/my-auctions` values as
  its inputs.
- Behaviour kept as the code has it, which a reader might not expect:
  - A missing auction row in the legacy bid route and in the manual finish
    gives 500, because `.single()` fails on zero rows.
  - After a rejected transfer the scheduler skips the status write, so the
    auction stays `active` and is picked up again by the next tick.
  - The bid floor is `current_bid`, with null read as 0; the starting bid is
    not consulted.
  - The manual finish accepts an auction that is already `completed`.

=== FILE: auctioncard.dfy ===
/**
  The dashboard's auction card (`AuctionManager`): the time-left text, the
  bid shown on the card, the owner's Finish/Delete controls versus the
  Place Bid button, and the bid dialog's suggested minimum.
 */
module AuctionCard {
  import opened JsValues
  import opened Store
  import Bidding
  import Finish
  import Creation

  // ---------------------------------------------------------------------
  // Decimal numerals, as template literals print non-negative integers.
  // ---------------------------------------------------------------------

  predicate IsDigit(c: char) {
    '0' <= c <= '9'
  }

  predicate AllDigits(s: string) {
    forall i :: 0 <= i < |s| ==> IsDigit(s[i])
  }

  function DigitChar(d: nat): (c: char)
    requires d < 10
    ensures IsDigit(c)
  {
    "0123456789"[d]
  }

  function DigitValue(c: char): nat
    requires IsDigit(c)
  {
    (c as int) - ('0' as int)
  }

  /** A numeral as JavaScript prints a non-negative integer: digits, with no leading zero. */
  predicate Numeral(s: string) {
    1 <= |s| && AllDigits(s) && (s[0] == '0' ==> |s| == 1)
  }

  /** The decimal numeral of `n`; it starts with `0` only when it is `0`. */
  function Decimal(n: nat): (s: string)
    ensures Numeral(s)
    ensures s[0] == '0' <==> n == 0
  {
    if n < 10 then [DigitChar(n)] else Decimal(n / 10) + [DigitChar(n % 10)]
  }

  function ParseDecimal(s: string): nat
    requires AllDigits(s)
  {
    if s == [] then 0 else ParseDecimal(s[..|s| - 1]) * 10 + DigitValue(s[|s| - 1])
  }

  lemma {:induction false} DecimalRoundTrip(n: nat)
    ensures ParseDecimal(Decimal(n)) == n
  {
    if n >= 10 {
      DecimalRoundTrip(n / 10);
      var s := Decimal(n);
      assert s[..|s| - 1] == Decimal(n / 10);
    }
  }

  lemma DigitCharValue(c: char)
    requires IsDigit(c)
    ensures DigitChar(DigitValue(c)) == c
  {
  }

  /** A numeral of two or more digits stands for at least 10. */
  lemma {:induction false} ParseLeadingNonzero(s: string)
    requires Numeral(s) && s[0] != '0'
    ensures 1 <= ParseDecimal(s)
    ensures 2 <= |s| ==> 10 <= ParseDecimal(s)
  {
    if 2 <= |s| {
      var init := s[..|s| - 1];
      assert init[0] == s[0];
      ParseLeadingNonzero(init);
    } else {
      assert s[..0] == [];
    }
  }

  /** Every numeral is the printed form of the number it denotes. */
  lemma {:induction false} DecimalOfParse(s: string)
    requires Numeral(s)
    ensures Decimal(ParseDecimal(s)) == s
  {
    var c := s[|s| - 1];
    DigitCharValue(c);
    if |s| == 1 {
      assert s[..0] == [];
      assert s == [c];
    } else {
      var init := s[..|s| - 1];
      assert init[0] == s[0];
      DecimalOfParse(init);
      ParseLeadingNonzero(init);
      var n := ParseDecimal(s);
      assert n / 10 == ParseDecimal(init) && n % 10 == DigitValue(c);
      assert s == init + [c];
    }
  }

  // ---------------------------------------------------------------------
  // formatTimeLeft.
  // ---------------------------------------------------------------------

  /** The `auction_end` value handed to the card: absent or empty, not a date, or an instant. */
  datatype EndTime = NoEndTime | Unparseable | At(ms: Millis)

  const Prefix: string := "Ending in "

  /** `Math.floor(diff / (1000 * 60 * 60 * 24))` for a positive `diff`. */
  function WholeDays(diff: int): nat
    requires 0 < diff
  {
    diff / DayMillis
  }

  /** `Math.floor((diff % (1000 * 60 * 60 * 24)) / (1000 * 60 * 60))` for a positive `diff`. */
  function WholeHours(diff: int): nat
    requires 0 < diff
  {
    (diff % DayMillis) / HourMillis
  }

  /** The countdown after the prefix: `{d}d {h}h` when a whole day remains, else `{h}h`. */
  function Countdown(days: nat, hours: nat): string {
    if days > 0 then Decimal(days) + "d " + Decimal(hours) + "h" else Decimal(hours) + "h"
  }

  /** What the card knows about the time left, before it is printed. */
  datatype TimeLeft = NoEndSet | InvalidEnd | Ended | Remaining(days: nat, hours: nat)

  /** The tests and the arithmetic of `formatTimeLeft(endTime)` at instant `now`. */
  function Classify(deadline: EndTime, now: Millis): (t: TimeLeft)
    ensures t.NoEndSet? <==> deadline.NoEndTime?
    ensures t.InvalidEnd? <==> deadline.Unparseable?
    ensures t.Ended? <==> deadline.At? && deadline.ms <= now
    ensures t.Remaining? ==> deadline.At? && now < deadline.ms
  {
    match deadline
    case NoEndTime => NoEndSet
    case Unparseable => InvalidEnd
    case At(ms) =>
      var diff := ms - now;
      if diff <= 0 then Ended else Remaining(WholeDays(diff), WholeHours(diff))
  }

  /** The string `formatTimeLeft` returns for each case. */
  function Render(t: TimeLeft): string {
    match t
    case NoEndSet => "No end time set"
    case InvalidEnd => "Invalid end date"
    case Ended => "Auction ended"
    case Remaining(days, hours) => Prefix + Countdown(days, hours)
  }

  /** `formatTimeLeft(endTime)` evaluated at instant `now`. */
  function FormatTimeLeft(deadline: EndTime, now: Millis): (text: string)
    ensures deadline.NoEndTime? ==> text == "No end time set"
    ensures deadline.Unparseable? ==> text == "Invalid end date"
    ensures deadline.At? && now < deadline.ms ==> |Prefix| < |text| && text[..|Prefix|] == Prefix
    ensures deadline.At? ==> (text == "Auction ended" <==> deadline.ms <= now)
  {
    var t := Classify(deadline, now);
    if t.Remaining? then
      var rest := Countdown(t.days, t.hours);
      assert (Prefix + rest)[..|Prefix|] == Prefix;
      assert "Auction ended"[0] != (Prefix + rest)[0];
      Render(t)
    else
      Render(t)
  }

  /** Before the deadline the case is the whole days and remaining whole hours left. */
  lemma RemainingBeforeDeadline(ms: Millis, now: Millis)
    requires now < ms
    ensures Classify(At(ms), now) == Remaining(WholeDays(ms - now), WholeHours(ms - now))
  {
  }

  /** A countdown carries a `d` exactly when it names a day count: digits and the
      hour unit never spell one. */
  lemma CountdownNamesDays(days: nat, hours: nat)
    ensures 'd' in Countdown(days, hours) <==> days > 0
  {
    var hs := Decimal(hours);
    var t := hs + "h";
    forall i | 0 <= i < |t|
      ensures t[i] != 'd'
    {
      if i < |hs| {
        assert IsDigit(hs[i]);
      }
    }
    if days > 0 {
      var ds := Decimal(days);
      assert (ds + "d " + hs + "h")[|ds|] == 'd';
    }
  }

  /** The length of the run of digits at the start of `s`. */
  function DigitRun(s: string): (n: nat)
    ensures n <= |s|
  {
    if s == [] || !IsDigit(s[0]) then 0 else 1 + DigitRun(s[1..])
  }

  lemma {:induction false} DigitRunOf(d: string, rest: string)
    requires AllDigits(d)
    requires rest == [] || !IsDigit(rest[0])
    ensures DigitRun(d + rest) == |d|
  {
    if d == [] {
      assert d + rest == rest;
    } else {
      assert (d + rest)[1..] == d[1..] + rest;
      DigitRunOf(d[1..], rest);
    }
  }

  /** Reads a countdown text back as (days, hours): `Ending in {d}d {h}h` or `Ending in {h}h`. */
  function ReadLabel(text: string): Option<(nat, nat)> {
    if |text| < |Prefix| + 2 || text[..|Prefix|] != Prefix || text[|text| - 1] != 'h' then None
    else ReadBody(text[|Prefix|..|text| - 1])
  }

  /** Reads the part between the prefix and the final `h`: `{d}d {h}` with a non-zero day
      count, or `{h}`; every count must be a numeral. */
  function ReadBody(body: string): Option<(nat, nat)> {
    var n := DigitRun(body);
    if n == 0 then None
    else if n == |body| then
      if Numeral(body) then Some((0, ParseDecimal(body))) else None
    else if body[0] != '0' && n + 2 < |body| && body[n..n + 2] == "d " && Numeral(body[n + 2..]) then
      assert AllDigits(body[..n]) by {
        DigitRunPrefix(body);
      }
      Some((ParseDecimal(body[..n]), ParseDecimal(body[n + 2..])))
    else None
  }

  lemma {:induction false} DigitRunPrefix(s: string)
    ensures AllDigits(s[..DigitRun(s)])
  {
    if s != [] && IsDigit(s[0]) {
      DigitRunPrefix(s[1..]);
      assert s[..DigitRun(s)] == [s[0]] + s[1..][..DigitRun(s[1..])];
    }
  }

  /** The whole days and remaining whole hours of a positive duration. */
  lemma DaysHoursBracket(diff: int)
    requires 0 < diff
    ensures var days := WholeDays(diff);
            var hours := WholeHours(diff);
            && hours < 24
            && days * DayMillis + hours * HourMillis <= diff < days * DayMillis + (hours + 1) * HourMillis
  {
    var days := diff / DayMillis;
    var rem := diff % DayMillis;
    var hours := rem / HourMillis;
    assert diff == days * DayMillis + rem;
    assert rem == hours * HourMillis + rem % HourMillis;
    assert 0 <= rem < DayMillis;
    assert hours < 24;
  }

  /** A label is read by reading what lies between the prefix and the final `h`. */
  lemma ReadsBetween(body: string)
    requires 1 <= |body|
    ensures ReadLabel(Prefix + (body + "h")) == ReadBody(body)
  {
    var text := Prefix + (body + "h");
    assert text[..|Prefix|] == Prefix;
    assert text[|Prefix|..|text| - 1] == body;
  }

  /** `{d}d {h}` reads back as (d, h). */
  lemma ReadsDaysAndHours(ds: string, hs: string)
    requires Numeral(ds) && ds[0] != '0' && Numeral(hs)
    ensures ReadBody(ds + "d " + hs) == Some((ParseDecimal(ds), ParseDecimal(hs)))
  {
    var body := ds + "d " + hs;
    assert body == ds + ("d " + hs);
    DigitRunOf(ds, "d " + hs);
    assert body[..|ds|] == ds;
    assert body[|ds|..|ds| + 2] == "d ";
    assert body[|ds| + 2..] == hs;
  }

  /** `{h}` reads back as (0, h). */
  lemma ReadsHoursOnly(hs: string)
    requires Numeral(hs)
    ensures ReadBody(hs) == Some((0, ParseDecimal(hs)))
  {
    DigitRunOf(hs, "");
    assert hs + "" == hs;
  }

  /** Every countdown reads back as the day and hour counts it was written from. */
  lemma CountdownReadsBack(days: nat, hours: nat)
    ensures ReadLabel(Prefix + Countdown(days, hours)) == Some((days, hours))
  {
    if days > 0 {
      DaysCountdownReadsBack(days, hours);
    } else {
      HoursCountdownReadsBack(hours);
    }
  }

  lemma DaysCountdownReadsBack(days: nat, hours: nat)
    requires days > 0
    ensures ReadLabel(Prefix + (Decimal(days) + "d " + Decimal(hours) + "h")) == Some((days, hours))
  {
    var ds := Decimal(days);
    var hs := Decimal(hours);
    DecimalRoundTrip(days);
    DecimalRoundTrip(hours);
    ReadsBetween(ds + "d " + hs);
    ReadsDaysAndHours(ds, hs);
  }

  lemma HoursCountdownReadsBack(hours: nat)
    ensures ReadLabel(Prefix + (Decimal(hours) + "h")) == Some((0, hours))
  {
    var hs := Decimal(hours);
    DecimalRoundTrip(hours);
    ReadsBetween(hs);
    ReadsHoursOnly(hs);
  }

  /** Only countdowns read back: a text that reads as (d, h) is the countdown of d and h. */
  lemma ReadsOnlyCountdowns(text: string)
    requires ReadLabel(text).Some?
    ensures text == Prefix + Countdown(ReadLabel(text).value.0, ReadLabel(text).value.1)
  {
    var body := text[|Prefix|..|text| - 1];
    assert text == Prefix + (body + "h");
    BodyIsCountdown(body);
  }

  /** A body that reads as (d, h) is what the countdown of d and h puts before its final `h`. */
  lemma BodyIsCountdown(body: string)
    requires ReadBody(body).Some?
    ensures body + "h" == Countdown(ReadBody(body).value.0, ReadBody(body).value.1)
  {
    var n := DigitRun(body);
    if n == |body| {
      DecimalOfParse(body);
    } else {
      DaysBodyIsCountdown(body, n);
    }
  }

  lemma DaysBodyIsCountdown(body: string, n: nat)
    requires n == DigitRun(body) && 0 < n < |body|
    requires body[0] != '0' && n + 2 < |body| && body[n..n + 2] == "d " && Numeral(body[n + 2..])
    ensures AllDigits(body[..n])
    ensures body + "h" == Countdown(ParseDecimal(body[..n]), ParseDecimal(body[n + 2..]))
  {
    var ds := body[..n];
    var hs := body[n + 2..];
    DigitRunPrefix(body);
    assert ds[0] == body[0];
    ParseLeadingNonzero(ds);
    DecimalOfParse(ds);
    DecimalOfParse(hs);
    SplitAtMarker(body, n);
  }

  lemma SplitAtMarker(body: string, n: nat)
    requires n + 2 <= |body| && body[n..n + 2] == "d "
    ensures body == body[..n] + "d " + body[n + 2..]
  {
    assert body == body[..n] + body[n..n + 2] + body[n + 2..];
  }

  /** The label names a day count exactly when at least one whole day remains. */
  lemma DayPartIffWholeDay(ms: Millis, now: Millis)
    requires now < ms
    ensures 'd' in FormatTimeLeft(At(ms), now)[|Prefix|..] <==> WholeDays(ms - now) > 0
  {
    RemainingBeforeDeadline(ms, now);
    var days := WholeDays(ms - now);
    var c := Countdown(days, WholeHours(ms - now));
    assert (Prefix + c)[|Prefix|..] == c;
    CountdownNamesDays(days, WholeHours(ms - now));
  }

  /** A countdown text reads back as whole days and hours (hours below 24) that
      bracket the remaining time to within the hour, and it is exactly the countdown
      of those two counts. */
  lemma TimeLeftReadsBack(ms: Millis, now: Millis)
    requires now < ms
    ensures var r := ReadLabel(FormatTimeLeft(At(ms), now));
            && r.Some?
            && r.value.1 < 24
            && r.value.0 * DayMillis + r.value.1 * HourMillis <= ms - now < r.value.0 * DayMillis + (r.value.1 + 1) * HourMillis
            && FormatTimeLeft(At(ms), now) == Prefix + Countdown(r.value.0, r.value.1)
  {
    var diff := ms - now;
    var days := WholeDays(diff);
    var hours := WholeHours(diff);
    RemainingBeforeDeadline(ms, now);
    CountdownReadsBack(days, hours);
    DaysHoursBracket(diff);
  }

  // ---------------------------------------------------------------------
  // renderAuctions and showBidModal.
  // ---------------------------------------------------------------------

  /** The amount printed under "Current Bid". */
  datatype ShownBid = Amount(value: Money) | NoBidsYet

  /** `artwork.current_bid || artwork.starting_bid || 'No bids yet'`. */
  function DisplayedBid(currentBid: Option<Money>, startingBid: Option<Money>): (shown: ShownBid)
    ensures shown == NoBidsYet <==> !TruthyNumber(currentBid) && !TruthyNumber(startingBid)
    ensures shown.Amount? ==> shown.value != 0.0 && (Some(shown.value) == currentBid || Some(shown.value) == startingBid)
    ensures TruthyNumber(currentBid) ==> shown == Amount(currentBid.value)
  {
    if TruthyNumber(currentBid) then Amount(currentBid.value)
    else if TruthyNumber(startingBid) then Amount(startingBid.value)
    else NoBidsYet
  }

  /** The card's controls: Finish and Delete for the owner, otherwise a Place Bid button
      that hands the dialog the auction's starting bid. */
  datatype Controls = FinishAndDelete | PlaceBidButton(offer: Option<Money>)

  /** `artwork.user_id == currentUserId`, with the signed-in id possibly missing. */
  function CardControls(owner: UserId, currentUser: Option<string>, startingBid: Option<Money>): (c: Controls)
    ensures c.FinishAndDelete? <==> currentUser == Some(owner)
    ensures c.PlaceBidButton? ==> c.offer == startingBid
  {
    if currentUser == Some(owner) then FinishAndDelete else PlaceBidButton(startingBid)
  }

  /** `showBidModal(artworkId, currentBid)`: the input's `min` and initial `value`,
      both `currentBid + 1`, with a `null` offer adding to 0. */
  function BidModal(offer: Option<Money>): (r: (Money, Money))
    ensures r.0 == r.1 && NullAsZero(offer) < r.0
    ensures r.0 == NullAsZero(offer) + 1.0
  {
    var suggested := NullAsZero(offer) + 1.0;
    (suggested, suggested)
  }

  /** The Finish button is shown to exactly the users whom the finish route does not
      turn away with 403. */
  lemma FinishShownExactlyToOwner(db: Db, u: UserId, k: ArtworkId, now: Millis, transferOk: bool, statusOk: bool)
    requires k in db.auctions && k in db.artworks
    ensures (CardControls(db.artworks[k].owner, Some(u), db.auctions[k].startingBid).FinishAndDelete?)
              <==> (Finish.FinishAuction(db, u, k, now, transferOk, statusOk).0.status != 403)
  {
  }

  /** Before the first bid, a card for an auction opened through the creation route
      shows its starting bid, or "No bids yet" when that is null or 0. */
  lemma CardBeforeFirstBid(db: Db, caller: UserId, k: ArtworkId, startingBid: Option<Money>, durationDays: int,
                           buyNowPrice: Option<Money>, now: Millis, newId: AuctionId)
    requires Creation.CreateAuction(db, caller, k, startingBid, durationDays, buyNowPrice, now, newId, true).0.status == 200
    ensures var a := Creation.CreateAuction(db, caller, k, startingBid, durationDays, buyNowPrice, now, newId, true).1.auctions[k];
            DisplayedBid(a.currentBid, a.startingBid) == (if TruthyNumber(startingBid) then Amount(startingBid.value) else NoBidsYet)
  {
  }

  /** After an accepted bid the card shows exactly that bid. */
  lemma CardShowsAcceptedBid(db: Db, u: UserId, k: ArtworkId, amount: Money, now: Millis)
    requires Bidding.PlaceBid(db, u, k, Some(amount), now, true).0.status == 200
    ensures var a := Bidding.PlaceBid(db, u, k, Some(amount), now, true).1.auctions[k];
            DisplayedBid(a.currentBid, a.startingBid) == Amount(amount)
  {
  }

  /** The dialog's suggested bid is accepted exactly when the starting bid it was given,
      plus one, is positive and exceeds the leading bid; on an auction that already has
      a higher bid the suggestion is refused. */
  lemma SuggestedBidAcceptedIff(db: Db, u: UserId, k: ArtworkId, now: Millis)
    requires k in db.auctions && now <= db.auctions[k].endTime
    ensures var a := db.auctions[k];
            var suggested := BidModal(a.startingBid).1;
            (Bidding.PlaceBid(db, u, k, Some(suggested), now, true).0.status == 200)
              <==> (0.0 < suggested && NullAsZero(a.currentBid) < suggested)
  {
  }
}

=== FILE: bidding.dfy ===
/**
  Bid placement: the `POST /api/artwork/:id/bid` route with its ordered
  rejection checks, and the older `POST /auction/bid/:artworkId` route that
  only compares against the current bid.  An accepted bid is one write of the
  auction row found by artwork id.
 */
module Bidding {
  import opened JsValues
  import opened Store
  import opened Http

  /** The auction row after an accepted bid: the only columns the route writes. */
  function Lead(a: Auction, amount: Money, bidder: UserId, now: Millis): Auction {
    a.(currentBid := Some(amount), currentBidder := Some(bidder), updatedAt := now)
  }

  /** `POST /:id/bid`.  `amount` is `parseFloat` of the body field, `None` when it is NaN;
      `writeOk` says whether the store accepts the update. */
  function PlaceBid(db: Db, caller: UserId, k: ArtworkId, amount: Option<real>, now: Millis, writeOk: bool): (r: (Response, Db))
    ensures r.0.status == 200 <==>
              && k in db.auctions
              && now <= db.auctions[k].endTime
              && amount.Some? && 0.0 < amount.value
              && NullAsZero(db.auctions[k].currentBid) < amount.value
              && writeOk
    ensures r.0.status != 200 ==> r.1 == db
    ensures r.0.status == 200 ==>
              && r.0.reply == BidPlaced(k, amount.value)
              && r.1 == db.(auctions := db.auctions[k := Lead(db.auctions[k], amount.value, caller, now)])
              && NullAsZero(db.auctions[k].currentBid) < NullAsZero(r.1.auctions[k].currentBid)
    ensures k !in db.auctions ==> r.0 == Reject(404, AuctionNotFound)
    ensures k in db.auctions && db.auctions[k].endTime < now ==> r.0 == Reject(400, AuctionEnded)
    ensures k in db.auctions && now <= db.auctions[k].endTime && (amount.None? || amount.value <= 0.0) ==>
              r.0 == Reject(400, InvalidBidAmount)
    ensures k in db.auctions && now <= db.auctions[k].endTime && amount.Some? && 0.0 < amount.value
              && amount.value <= NullAsZero(db.auctions[k].currentBid) ==>
              r.0 == Reject(400, BidTooLow)
    ensures k in db.auctions && now <= db.auctions[k].endTime && amount.Some? && 0.0 < amount.value
              && NullAsZero(db.auctions[k].currentBid) < amount.value && !writeOk ==>
              r.0 == InternalError()
  {
    if k !in db.auctions then (Reject(404, AuctionNotFound), db)
    else
      var a := db.auctions[k];
      if a.endTime < now then (Reject(400, AuctionEnded), db)
      else if amount.None? || amount.value <= 0.0 then (Reject(400, InvalidBidAmount), db)
      else if AtMost(amount.value, a.currentBid) then (Reject(400, BidTooLow), db)
      else if !writeOk then (InternalError(), db)
      else
        var a' := Lead(a, amount.value, caller, now);
        (Ok(BidPlaced(k, a'.currentBid.value)), db.(auctions := db.auctions[k := a']))
  }

  /** `POST /auction/bid/:artworkId`.  A missing row makes `.single()` fail, which the route
      rethrows as a 500; no deadline, status or positivity check is made.  `amount` is
      `None` when the body has no `amount`: `undefined <= current_bid` is false, and the
      update object's `undefined` bid is dropped, so only the bidder is written. */
  function PlaceBidLegacy(db: Db, caller: UserId, k: ArtworkId, amount: Option<Money>, writeOk: bool): (r: (Response, Db))
    ensures r.0.status == 302 <==>
              k in db.auctions && (amount.Some? ==> NullAsZero(db.auctions[k].currentBid) < amount.value) && writeOk
    ensures r.0.status == 400 <==> k in db.auctions && amount.Some? && amount.value <= NullAsZero(db.auctions[k].currentBid)
    ensures r.0.status != 302 ==> r.1 == db
    ensures r.0.status == 302 ==>
              && r.0 == Response(302, RedirectTo("/auction"))
              && r.1 == db.(auctions := db.auctions[k := db.auctions[k].(
                              currentBid := if amount.Some? then amount else db.auctions[k].currentBid,
                              currentBidder := Some(caller))])
    ensures k !in db.auctions ==> r.0 == InternalError()
    ensures k in db.auctions && amount.Some? && amount.value <= NullAsZero(db.auctions[k].currentBid) ==>
              r.0 == Reject(400, BidTooLow)
    ensures k in db.auctions && (amount.Some? ==> NullAsZero(db.auctions[k].currentBid) < amount.value) && !writeOk ==>
              r.0 == InternalError()
  {
    if k !in db.auctions then (InternalError(), db)
    else
      var a := db.auctions[k];
      if amount.Some? && AtMost(amount.value, a.currentBid) then (Reject(400, BidTooLow), db)
      else if !writeOk then (InternalError(), db)
      else
        var bid := if amount.Some? then amount else a.currentBid;
        (Response(302, RedirectTo("/auction")), db.(auctions := db.auctions[k := a.(currentBid := bid, currentBidder := Some(caller))]))
  }

  /** A legacy request without an amount takes the lead at the old price: the bidder
      changes, the leading bid does not. */
  lemma LegacyMissingAmountTakesLead(db: Db, caller: UserId, k: ArtworkId)
    requires k in db.auctions
    ensures var r := PlaceBidLegacy(db, caller, k, None, true);
            && r.0.status == 302
            && r.1.auctions[k].currentBidder == Some(caller)
            && r.1.auctions[k].currentBid == db.auctions[k].currentBid
  {
  }

  /** Every bid the current route accepts the legacy route accepts too, with the
      same new leader; the two rows differ at most in `updated_at`. */
  lemma LegacyAcceptsWhatCurrentAccepts(db: Db, caller: UserId, k: ArtworkId, amount: Option<real>, now: Millis)
    requires PlaceBid(db, caller, k, amount, now, true).0.status == 200
    ensures var legacy := PlaceBidLegacy(db, caller, k, amount, true);
            var current := PlaceBid(db, caller, k, amount, now, true);
            && legacy.0.status == 302
            && legacy.1.auctions[k] == current.1.auctions[k].(updatedAt := db.auctions[k].updatedAt)
  {
  }

  /** The legacy route ignores the deadline: past the end time, a bid above the
      current one is refused by the current route and accepted by the legacy one. */
  lemma LegacyIgnoresDeadline(db: Db, caller: UserId, k: ArtworkId, amount: Money, now: Millis)
    requires k in db.auctions && db.auctions[k].endTime < now
    requires NullAsZero(db.auctions[k].currentBid) < amount
    ensures PlaceBid(db, caller, k, Some(amount), now, true).0 == Reject(400, AuctionEnded)
    ensures PlaceBidLegacy(db, caller, k, Some(amount), true).0.status == 302
  {
  }

  /** With no bid recorded yet (`current_bid` null) the floor is 0, not the starting
      bid: any positive bid before the deadline is accepted. */
  lemma NullLeadIgnoresStartingBid(db: Db, caller: UserId, k: ArtworkId, amount: Money, now: Millis)
    requires k in db.auctions && db.auctions[k].currentBid.None?
    requires now <= db.auctions[k].endTime && 0.0 < amount
    ensures PlaceBid(db, caller, k, Some(amount), now, true).0.status == 200
  {
  }

  // ---------------------------------------------------------------------
  // Sequences of bids on one auction.
  // ---------------------------------------------------------------------

  datatype BidRequest = BidRequest(caller: UserId, amount: Option<real>, now: Millis, writeOk: bool)

  /** Submits the requests in order to the bid route for artwork `k`; returns the
      final store and the amounts that were accepted, in order. */
  function RunBids(db: Db, k: ArtworkId, reqs: seq<BidRequest>): (Db, seq<Money>) {
    if reqs == [] then (db, [])
    else
      var (d, accepted) := RunBids(db, k, reqs[..|reqs| - 1]);
      var q := reqs[|reqs| - 1];
      var (resp, d') := PlaceBid(d, q.caller, k, q.amount, q.now, q.writeOk);
      if resp.status == 200 then (d', accepted + [q.amount.value]) else (d', accepted)
  }

  predicate StrictlyIncreasing(xs: seq<Money>) {
    forall i, j :: 0 <= i < j < |xs| ==> xs[i] < xs[j]
  }

  /** Accepted bids on one auction strictly increase, each above the leading bid
      the auction started from, and the row ends holding the last accepted bid. */
  lemma {:induction false} AcceptedBidsIncrease(db: Db, k: ArtworkId, reqs: seq<BidRequest>)
    ensures var (d, accepted) := RunBids(db, k, reqs);
            && StrictlyIncreasing(accepted)
            && (forall i :: 0 <= i < |accepted| ==> k in db.auctions && NullAsZero(db.auctions[k].currentBid) < accepted[i])
            && d.artworks == db.artworks
            && d.auctions.Keys == db.auctions.Keys
            && (accepted == [] ==> d == db)
            && (accepted != [] ==> k in d.auctions && d.auctions[k].currentBid == Some(accepted[|accepted| - 1]))
  {
    if reqs != [] {
      var init := reqs[..|reqs| - 1];
      AcceptedBidsIncrease(db, k, init);
    }
  }
}

=== FILE: creation.dfy ===
/**
  Auction creation, `POST /api/artwork/:id/auction`: only the artwork's owner
  may open an auction, which starts `active` with the starting bid as its
  leading bid and no bidder.
 */
module Creation {
  import opened JsValues
  import opened Store
  import opened Http
  import Scheduler
  import Bidding

  /** The inserted row; `status` and `updated_at` take their column defaults, `active`
      and the insert's instant. */
  function NewAuction(id: AuctionId, k: ArtworkId, startingBid: Option<Money>, durationDays: int,
                      buyNowPrice: Option<Money>, now: Millis): Auction
  {
    Auction(id, k, startingBid, startingBid, None, now + durationDays * DayMillis, Active, buyNowPrice, now)
  }

  /** `POST /:id/auction` by `caller`; `newId` is the id the store assigns, `insertOk`
      whether the insert succeeds. */
  function CreateAuction(db: Db, caller: UserId, k: ArtworkId, startingBid: Option<Money>, durationDays: int,
                         buyNowPrice: Option<Money>, now: Millis, newId: AuctionId, insertOk: bool): (r: (Response, Db))
    ensures r.0.status == 404 <==> k !in db.artworks || db.artworks[k].owner != caller
    ensures r.0.status == 200 <==> k in db.artworks && db.artworks[k].owner == caller && k !in db.auctions && insertOk
    ensures r.0.status != 200 ==> r.1 == db
    ensures k !in db.artworks || db.artworks[k].owner != caller ==> r.0 == Reject(404, ArtworkNotFound)
    ensures k in db.artworks && db.artworks[k].owner == caller && (k in db.auctions || !insertOk) ==> r.0 == InternalError()
    ensures r.0.status == 200 ==>
              && r.1.artworks == db.artworks
              && r.1.transactions == db.transactions
              && r.1.auctions.Keys == db.auctions.Keys + {k}
              && (forall j :: j in db.auctions ==> r.1.auctions[j] == db.auctions[j])
              && r.0.reply == AuctionCreated(r.1.auctions[k])
              && r.1.auctions[k].id == newId && r.1.auctions[k].artworkId == k
              && r.1.auctions[k].currentBid == startingBid == r.1.auctions[k].startingBid
              && r.1.auctions[k].currentBidder == None
              && r.1.auctions[k].status == Active
              && r.1.auctions[k].endTime == now + durationDays * DayMillis
              && r.1.auctions[k].buyNowPrice == buyNowPrice
              && r.1.auctions[k].updatedAt == now
  {
    if k !in db.artworks || db.artworks[k].owner != caller then (Reject(404, ArtworkNotFound), db)
    else if k in db.auctions || !insertOk then (InternalError(), db)
    else
      var a := NewAuction(newId, k, startingBid, durationDays, buyNowPrice, now);
      (Ok(AuctionCreated(a)), db.(auctions := db.auctions[k := a]))
  }

  /** With a fresh id the new row keeps the store well formed. */
  lemma CreatePreservesInvariants(db: Db, caller: UserId, k: ArtworkId, startingBid: Option<Money>, durationDays: int,
                                  buyNowPrice: Option<Money>, now: Millis, newId: AuctionId, insertOk: bool)
    requires WellFormed(db) && NoEndedEarly(db)
    requires forall j :: j in db.auctions ==> db.auctions[j].id != newId
    ensures var r := CreateAuction(db, caller, k, startingBid, durationDays, buyNowPrice, now, newId, insertOk).1;
            WellFormed(r) && NoEndedEarly(r)
  {
  }

  /** A new auction is not selected by the scheduler before its deadline and is
      selected from the deadline on. */
  lemma CreatedAuctionDueAtDeadline(db: Db, caller: UserId, k: ArtworkId, startingBid: Option<Money>, durationDays: int,
                                    buyNowPrice: Option<Money>, now: Millis, newId: AuctionId, t: Millis)
    requires CreateAuction(db, caller, k, startingBid, durationDays, buyNowPrice, now, newId, true).0.status == 200
    ensures var a := CreateAuction(db, caller, k, startingBid, durationDays, buyNowPrice, now, newId, true).1.auctions[k];
            Scheduler.IsDue(a, t) <==> now + durationDays * DayMillis <= t
  {
  }

  /** On an auction opened through this route the starting bid is a floor: no bid at or
      below it is accepted, at any time. */
  lemma CreatedAuctionFloor(db: Db, caller: UserId, k: ArtworkId, start: Money, durationDays: int,
                            buyNowPrice: Option<Money>, now: Millis, newId: AuctionId,
                            bidder: UserId, amount: Money, t: Millis, writeOk: bool)
    requires CreateAuction(db, caller, k, Some(start), durationDays, buyNowPrice, now, newId, true).0.status == 200
    requires amount <= start
    ensures var created := CreateAuction(db, caller, k, Some(start), durationDays, buyNowPrice, now, newId, true).1;
            Bidding.PlaceBid(created, bidder, k, Some(amount), t, writeOk).0.status != 200
  {
  }
}

=== FILE: deletion.dfy ===
/**
  `DELETE /api/artwork/:artworkId`: an admin or the owner may delete an
  artwork; its auctions are deleted first, and a failure there leaves the
  artwork row in place.  The storage-object removal before them has no
  effect on the rows and its failure is ignored.
 */
module Deletion {
  import opened Store
  import opened Http

  /** The authenticated caller; `status` is the `users.status` column (`'user'` when unset). */
  datatype Caller = Caller(id: UserId, status: string)

  const Admin: string := "admin"

  /** The route's authorization rule. */
  predicate MayDelete(caller: Caller, art: Artwork) {
    caller.status == Admin || art.owner == caller.id
  }

  /** `delete from auctions where artwork_id = k`: the auction map's key is the `artwork_id` column. */
  function DropAuctionsOf(db: Db, k: ArtworkId): Db {
    db.(auctions := db.auctions - {k})
  }

  /** The handler; the two flags say whether each delete statement succeeds. */
  function DeleteArtwork(db: Db, caller: Caller, k: ArtworkId, auctionsDeleteOk: bool, artworkDeleteOk: bool): (r: (Response, Db))
    ensures r.0.status == 404 <==> k !in db.artworks
    ensures r.0.status == 403 <==> k in db.artworks && !MayDelete(caller, db.artworks[k])
    ensures r.0.status == 200 <==> k in db.artworks && MayDelete(caller, db.artworks[k]) && auctionsDeleteOk && artworkDeleteOk
    ensures r.0.status == 200 ==> r.0.reply == ArtworkDeleted && r.1.artworks == db.artworks - {k}
    ensures r.0.status != 200 ==> r.1.artworks == db.artworks
    ensures !auctionsDeleteOk ==> r.1 == db
    ensures r.1.transactions == db.transactions
    ensures r.1.auctions.Keys <= db.auctions.Keys
    ensures forall j :: j in r.1.auctions ==> r.1.auctions[j] == db.auctions[j]
    ensures forall j :: j in db.auctions && j != k ==> j in r.1.auctions
    ensures k in db.artworks && k !in r.1.artworks ==> k !in r.1.auctions
    ensures k in db.artworks && MayDelete(caller, db.artworks[k]) && auctionsDeleteOk && !artworkDeleteOk ==>
              k in r.1.artworks && k !in r.1.auctions
    ensures k !in db.artworks ==> r.0 == Reject(404, ArtworkNotFound)
    ensures k in db.artworks && !MayDelete(caller, db.artworks[k]) ==> r.0 == Reject(403, Unauthorized)
    ensures k in db.artworks && MayDelete(caller, db.artworks[k]) && !(auctionsDeleteOk && artworkDeleteOk) ==>
              r.0 == InternalError()
  {
    if k !in db.artworks then (Reject(404, ArtworkNotFound), db)
    else if !MayDelete(caller, db.artworks[k]) then (Reject(403, Unauthorized), db)
    else if !auctionsDeleteOk then (InternalError(), db)
    else
      var cleared := DropAuctionsOf(db, k);
      if !artworkDeleteOk then (InternalError(), cleared)
      else (Ok(ArtworkDeleted), cleared.(artworks := cleared.artworks - {k}))
  }

  /** A delete keeps the store well formed and only ever removes rows. */
  lemma DeletePreservesInvariants(db: Db, caller: Caller, k: ArtworkId, auctionsDeleteOk: bool, artworkDeleteOk: bool)
    requires WellFormed(db) && NoEndedEarly(db)
    ensures var r := DeleteArtwork(db, caller, k, auctionsDeleteOk, artworkDeleteOk).1;
            && WellFormed(r) && NoEndedEarly(r)
            && r.artworks.Keys <= db.artworks.Keys
  {
  }
}

=== FILE: finish.dfy ===
/**
  The owner-triggered finish route, `POST /api/artwork/auction/finish/:id`:
  an ownership gate, an eligibility test, then the same transfer-then-complete
  pair of writes as the scheduler, aborting when the transfer fails.
 */
module Finish {
  import opened JsValues
  import opened Store
  import opened Http
  import Scheduler
  import Bidding

  /** The route's eligibility test: the deadline has passed, or the auction is
      active with a leading bidder, or its status is `ended_early`. */
  predicate MayFinalize(a: Auction, now: Millis) {
    || now >= a.endTime
    || (a.status == Active && Truthy(a.currentBidder))
    || a.status == EndedEarly
  }

  /** The store after the route's writes: transfer (when there is a winner), then complete by artwork id. */
  function FinishWrites(db: Db, k: ArtworkId, now: Millis, statusOk: bool): Db
    requires k in db.auctions
  {
    var a := db.auctions[k];
    var moved := if Truthy(a.currentBidder) then SetOwner(db, k, a.currentBidder.value) else db;
    if statusOk then CompleteByArtwork(moved, k, now) else moved
  }

  /** `POST /auction/finish/:id` called by `caller`.  A missing auction or artwork row
      makes `.single()` fail, which the route turns into a 500. */
  function FinishAuction(db: Db, caller: UserId, k: ArtworkId, now: Millis, transferOk: bool, statusOk: bool): (r: (Response, Db))
    ensures r.1.transactions == db.transactions
    ensures k !in db.auctions || k !in db.artworks ==> r == (InternalError(), db)
    ensures r.0.status == 403 <==> k in db.auctions && k in db.artworks && db.artworks[k].owner != caller
    ensures r.0.status == 400 <==>
              && k in db.auctions && k in db.artworks && db.artworks[k].owner == caller
              && !MayFinalize(db.auctions[k], now)
    ensures r.0.status == 200 <==>
              && k in db.auctions && k in db.artworks && db.artworks[k].owner == caller
              && MayFinalize(db.auctions[k], now)
              && (Truthy(db.auctions[k].currentBidder) ==> transferOk)
              && statusOk
    ensures r.0.status == 403 || r.0.status == 400 ==> r.1 == db
    ensures r.0.status == 403 ==> r.0 == Reject(403, Unauthorized)
    ensures r.0.status == 400 ==> r.0 == Reject(400, NotReady)
    ensures && k in db.auctions && k in db.artworks && db.artworks[k].owner == caller
            && MayFinalize(db.auctions[k], now) && !Truthy(db.auctions[k].currentBidder) && !statusOk ==>
              r == (InternalError(), db)
    ensures k in db.auctions && Truthy(db.auctions[k].currentBidder) && !transferOk ==> r.1 == db
    ensures && k in db.auctions && k in db.artworks && db.artworks[k].owner == caller
            && MayFinalize(db.auctions[k], now) && Truthy(db.auctions[k].currentBidder) && !transferOk ==>
              r.0 == InternalError()
    ensures r.0.status != 200 ==> r.1.auctions == db.auctions
    ensures r.1.artworks.Keys == db.artworks.Keys
    ensures forall j :: j in db.artworks && j != k ==> r.1.artworks[j] == db.artworks[j]
    ensures && k in db.auctions && k in db.artworks && db.artworks[k].owner == caller
            && MayFinalize(db.auctions[k], now) && Truthy(db.auctions[k].currentBidder) && transferOk && !statusOk ==>
              && r.0 == InternalError()
              && r.1.artworks[k] == db.artworks[k].(owner := db.auctions[k].currentBidder.value)
    ensures r.0.status == 200 ==>
              && r.0.reply == AuctionFinished(Truthy(db.auctions[k].currentBidder))
              && r.1.auctions == db.auctions[k := Close(db.auctions[k], now)]
              && r.1.auctions[k].status == Completed
              && k in r.1.artworks
              && r.1.artworks[k]
                   == if Truthy(db.auctions[k].currentBidder) then db.artworks[k].(owner := db.auctions[k].currentBidder.value)
                      else db.artworks[k]
  {
    if k !in db.auctions || k !in db.artworks then (InternalError(), db)
    else
      var a := db.auctions[k];
      if db.artworks[k].owner != caller then (Reject(403, Unauthorized), db)
      else if !MayFinalize(a, now) then (Reject(400, NotReady), db)
      else if Truthy(a.currentBidder) && !transferOk then (InternalError(), db)
      else if !statusOk then (InternalError(), FinishWrites(db, k, now, false))
      else (Ok(AuctionFinished(Truthy(a.currentBidder))), FinishWrites(db, k, now, true))
  }

  /** Once past the gate, the route performs exactly the scheduler's step for the
      auction, with the same outcome for every combination of write failures. */
  lemma FinishMatchesSchedulerStep(db: Db, caller: UserId, k: ArtworkId, now: Millis, transferOk: bool, statusOk: bool)
    requires WellFormed(db)
    requires k in db.auctions && k in db.artworks && db.artworks[k].owner == caller
    requires MayFinalize(db.auctions[k], now)
    ensures var a := db.auctions[k];
            var fail := Scheduler.Failures(if transferOk then {} else {k}, if statusOk then {} else {a.id});
            FinishAuction(db, caller, k, now, transferOk, statusOk).1 == Scheduler.ProcessOne(db, a, now, fail).0
  {
    var a := db.auctions[k];
    assert a.artworkId == k;
    var moved := if Truthy(a.currentBidder) then SetOwner(db, k, a.currentBidder.value) else db;
    assert moved.auctions == db.auctions;
    assert WellFormed(moved);
    CompleteWritesAgree(moved, k, now);
  }

  /** The route never looks at `completed`: when the artwork has since passed to the
      caller, finishing the old auction again hands it back to the recorded bidder. */
  lemma FinishReopensCompleted(db: Db, caller: UserId, k: ArtworkId, now: Millis)
    requires k in db.auctions && k in db.artworks && db.artworks[k].owner == caller
    requires db.auctions[k].status == Completed && db.auctions[k].endTime <= now
    requires Truthy(db.auctions[k].currentBidder) && db.auctions[k].currentBidder.value != caller
    ensures var r := FinishAuction(db, caller, k, now, true, true);
            && r.0.status == 200
            && r.1.artworks[k].owner == db.auctions[k].currentBidder.value
            && r.1.artworks[k].owner != db.artworks[k].owner
  {
  }

  /** The bid route does not look at the status either: after an early finish the
      auction still takes higher bids until its deadline. */
  lemma BidsAfterEarlyFinish(db: Db, owner: UserId, k: ArtworkId, now: Millis, bidder: UserId, amount: Money, later: Millis)
    requires k in db.auctions && k in db.artworks && db.artworks[k].owner == owner
    requires FinishAuction(db, owner, k, now, true, true).0.status == 200
    requires later <= db.auctions[k].endTime && 0.0 < amount && NullAsZero(db.auctions[k].currentBid) < amount
    ensures var finished := FinishAuction(db, owner, k, now, true, true).1;
            && finished.auctions[k].status == Completed
            && Bidding.PlaceBid(finished, bidder, k, Some(amount), later, true).0.status == 200
  {
    var finished := FinishAuction(db, owner, k, now, true, true).1;
    assert finished.auctions[k] == Close(db.auctions[k], now);
  }
}

=== FILE: http.dfy ===
/**
  What a handler answers: an HTTP status and the JSON (or redirect) it sends.
 */
module Http {
  import opened JsValues
  import opened Store

  /** The rejection reasons the handlers distinguish in their `error` strings. */
  datatype Reason =
    | AuctionNotFound
    | ArtworkNotFound
    | AuctionEnded
    | InvalidBidAmount
    | BidTooLow
    | Unauthorized
    | NotReady
    | InvalidSignature
    | PasswordMismatch
    | PasswordTooShort
    | WrongCurrentPassword
    | ServerError

  datatype Reply =
    | Failed(reason: Reason)
    | AuctionCreated(auction: Auction)
    | BidPlaced(artworkId: ArtworkId, currentBid: Money)
    | AuctionFinished(transferred: bool)
    | WebhookReceived
    | ArtworkDeleted
    | PasswordUpdated
    | ProfileUpdated(fullName: Option<string>, avatarUrl: Option<string>)
    | RedirectTo(path: string)

  datatype Response = Response(status: nat, reply: Reply)

  function Reject(status: nat, reason: Reason): Response {
    Response(status, Failed(reason))
  }

  function Ok(reply: Reply): Response {
    Response(200, reply)
  }

  function InternalError(): Response {
    Response(500, Failed(ServerError))
  }
}

=== FILE: jsvalues.dfy ===
/**
  The few JavaScript value semantics the server and client code lean on:
  nullable values, truthiness of identifiers, and the numeric coercion that
  `x <= null` performs.
 */
module JsValues {

  /** A value that may be JSON `null` (or `undefined`): `None` stands for both. */
  datatype Option<+T> = None | Some(value: T) {

    /** The value when present, otherwise `default`. */
    function GetOr(default: T): T {
      match this
      case Some(v) => v
      case None => default
    }
  }

  /** JavaScript truthiness of a nullable string: `null`, `undefined` and `""` are falsy. */
  predicate Truthy(s: Option<string>) {
    s.Some? && s.value != ""
  }

  /** JavaScript truthiness of a nullable number: `null` and `0` are falsy. */
  predicate TruthyNumber(x: Option<real>) {
    x.Some? && x.value != 0.0
  }

  /** Numeric coercion of a nullable number, as in `amount <= null`: `null` becomes 0. */
  function NullAsZero(x: Option<real>): real {
    x.GetOr(0.0)
  }

  /** `amount <= column` where the column may hold `null`. */
  predicate AtMost(amount: real, column: Option<real>) {
    amount <= NullAsZero(column)
  }
}

=== FILE: profile.dfy ===
/**
  The user routes' pure parts: the profile statistics computed from query
  results, the change-password validation, and the profile-update defaults.
 */
module Profile {
  import opened JsValues
  import opened Store
  import opened Http

  // ---------------------------------------------------------------------
  // Profile statistics.
  // ---------------------------------------------------------------------

  /** `artwork.views || 0`. */
  function ViewsOrZero(v: Option<int>): int {
    v.GetOr(0)
  }

  /** `reduce((sum, artwork) => sum + (artwork.views || 0), 0)`, a fold from the left; it
      equals the sum taken from the front. */
  function SumViews(views: seq<Option<int>>): (s: int)
    ensures s == SumFront(views)
  {
    if views == [] then 0
    else
      var init := views[..|views| - 1];
      assert views == init + [views[|views| - 1]];
      SumFrontSnoc(init, views[|views| - 1]);
      SumViews(init) + ViewsOrZero(views[|views| - 1])
  }

  /** The views of the rows added up first row first. */
  function SumFront(views: seq<Option<int>>): int {
    if views == [] then 0 else ViewsOrZero(views[0]) + SumFront(views[1..])
  }

  lemma {:induction false} SumFrontSnoc(init: seq<Option<int>>, v: Option<int>)
    ensures SumFront(init + [v]) == SumFront(init) + ViewsOrZero(v)
  {
    if init == [] {
      assert (init + [v])[1..] == [];
    } else {
      assert (init + [v])[1..] == init[1..] + [v];
      SumFrontSnoc(init[1..], v);
    }
  }

  /** The sum does not depend on how the rows are split. */
  lemma {:induction false} SumViewsAppend(a: seq<Option<int>>, b: seq<Option<int>>)
    ensures SumViews(a + b) == SumViews(a) + SumViews(b)
  {
    if b != [] {
      var b' := b[..|b| - 1];
      assert (a + b)[..|a + b| - 1] == a + b';
      assert (a + b)[|a + b| - 1] == b[|b| - 1];
      SumViewsAppend(a, b');
    } else {
      assert a + b == a;
    }
  }

  /** Rows without a view count add nothing; with no negative counts the total is non-negative. */
  lemma {:induction false} SumViewsBounds(views: seq<Option<int>>)
    requires forall i :: 0 <= i < |views| && views[i].Some? ==> 0 <= views[i].value
    ensures 0 <= SumViews(views)
    ensures (forall i :: 0 <= i < |views| ==> views[i].None?) ==> SumViews(views) == 0
  {
    if views != [] {
      SumViewsBounds(views[..|views| - 1]);
    }
  }

  /** `String.prototype.substring(0, 10)`: the `YYYY-MM-DD` part of a timestamp. */
  function DatePart(createdAt: string): (d: string)
    ensures d <= createdAt
    ensures |d| == if |createdAt| < 10 then |createdAt| else 10
  {
    if |createdAt| <= 10 then createdAt else createdAt[..10]
  }

  datatype Point = Point(date: string, count: int)

  datatype ViewRow = ViewRow(createdAt: string, views: Option<int>)

  function ViewCounts(rows: seq<ViewRow>): seq<Option<int>> {
    seq(|rows|, i requires 0 <= i < |rows| => rows[i].views)
  }

  /** `viewsOverTime`: one point per artwork, in query order. */
  function ViewsOverTime(rows: seq<ViewRow>): (pts: seq<Point>)
    ensures |pts| == |rows|
    ensures forall i :: 0 <= i < |rows| ==> pts[i] == Point(DatePart(rows[i].createdAt), ViewsOrZero(rows[i].views))
  {
    seq(|rows|, i requires 0 <= i < |rows| => Point(DatePart(rows[i].createdAt), ViewsOrZero(rows[i].views)))
  }

  /** `favoritesOverTime`: one point of count 1 per favorite row. */
  function FavoritesOverTime(createdAts: seq<string>): (pts: seq<Point>)
    ensures |pts| == |createdAts|
    ensures forall i :: 0 <= i < |pts| ==> pts[i] == Point(DatePart(createdAts[i]), 1)
  {
    seq(|createdAts|, i requires 0 <= i < |createdAts| => Point(DatePart(createdAts[i]), 1))
  }

  function SumPoints(pts: seq<Point>): int {
    if pts == [] then 0 else SumPoints(pts[..|pts| - 1]) + pts[|pts| - 1].count
  }

  /** The views chart adds up to the view total of the same rows. */
  lemma {:induction false} ViewsChartMatchesTotal(rows: seq<ViewRow>)
    ensures SumPoints(ViewsOverTime(rows)) == SumViews(ViewCounts(rows))
  {
    if rows != [] {
      var init := rows[..|rows| - 1];
      ViewsChartMatchesTotal(init);
      assert ViewsOverTime(rows)[..|rows| - 1] == ViewsOverTime(init);
      assert ViewCounts(rows)[..|rows| - 1] == ViewCounts(init);
    }
  }

  /** The favorites chart adds up to the number of favorite rows. */
  lemma {:induction false} FavoritesChartMatchesTotal(createdAts: seq<string>)
    ensures SumPoints(FavoritesOverTime(createdAts)) == |createdAts|
  {
    if createdAts != [] {
      var init := createdAts[..|createdAts| - 1];
      FavoritesChartMatchesTotal(init);
      assert FavoritesOverTime(createdAts)[..|createdAts| - 1] == FavoritesOverTime(init);
    }
  }

  datatype CategoryCount = CategoryCount(category: string, count: nat)

  /** One step of the `reduce`: bump the first entry for `name`, or append a new one. */
  function Bump(acc: seq<CategoryCount>, name: string): (b: seq<CategoryCount>)
    ensures b != [] && |acc| <= |b| <= |acc| + 1
  {
    if acc == [] then [CategoryCount(name, 1)]
    else if acc[0].category == name then [acc[0].(count := acc[0].count + 1)] + acc[1..]
    else [acc[0]] + Bump(acc[1..], name)
  }

  /** `categoryDistribution`: the `reduce` over the category names of the user's artworks. */
  function CategoryDistribution(names: seq<string>): (r: seq<CategoryCount>)
    ensures |r| <= |names|
    ensures r == [] <==> names == []
  {
    if names == [] then [] else Bump(CategoryDistribution(names[..|names| - 1]), names[|names| - 1])
  }

  /** The distinct names of `names`, in order of first appearance. */
  function FirstAppearances(names: seq<string>): seq<string> {
    if names == [] then []
    else
      var init := names[..|names| - 1];
      var last := names[|names| - 1];
      if last in init then FirstAppearances(init) else FirstAppearances(init) + [last]
  }

  predicate Distinct(xs: seq<string>) {
    forall i, j :: 0 <= i < j < |xs| ==> xs[i] != xs[j]
  }

  lemma {:induction false} FirstAppearancesSpec(names: seq<string>)
    ensures Distinct(FirstAppearances(names))
    ensures forall x :: x in FirstAppearances(names) <==> x in names
  {
    if names != [] {
      var init := names[..|names| - 1];
      FirstAppearancesSpec(init);
      assert names == init + [names[|names| - 1]];
    }
  }

  /** `acc` holds one entry per distinct name of `names`, in first-appearance order,
      each counting the occurrences of its name. */
  predicate Tallies(acc: seq<CategoryCount>, names: seq<string>) {
    var firsts := FirstAppearances(names);
    && |acc| == |firsts|
    && forall i :: 0 <= i < |acc| ==> acc[i].category == firsts[i] && acc[i].count == multiset(names)[firsts[i]]
  }

  lemma {:induction false} BumpSpec(acc: seq<CategoryCount>, name: string)
    requires forall i, j :: 0 <= i < j < |acc| ==> acc[i].category != acc[j].category
    ensures var r := Bump(acc, name);
            && ((exists i :: 0 <= i < |acc| && acc[i].category == name) ==> |r| == |acc|)
            && ((forall i :: 0 <= i < |acc| ==> acc[i].category != name) ==> |r| == |acc| + 1 && r[|acc|] == CategoryCount(name, 1))
            && |acc| <= |r|
            && (forall i :: 0 <= i < |acc| ==> r[i] == if acc[i].category == name then acc[i].(count := acc[i].count + 1) else acc[i])
  {
    if acc != [] && acc[0].category != name {
      BumpSpec(acc[1..], name);
    }
  }

  /** Bumping a name already tallied increments its entry and nothing else. */
  lemma TallyKnownName(acc: seq<CategoryCount>, init: seq<string>, last: string)
    requires Tallies(acc, init) && last in init
    ensures Tallies(Bump(acc, last), init + [last])
  {
    var names := init + [last];
    FirstAppearancesSpec(init);
    var firsts := FirstAppearances(init);
    assert names[..|names| - 1] == init;
    assert FirstAppearances(names) == firsts;
    assert forall i, j :: 0 <= i < j < |acc| ==> acc[i].category != acc[j].category;
    BumpSpec(acc, last);
    var i :| 0 <= i < |firsts| && firsts[i] == last;
    assert acc[i].category == last;
    var r := Bump(acc, last);
    assert |r| == |acc|;
    assert multiset(names) == multiset(init) + multiset{last};
    forall j | 0 <= j < |r|
      ensures r[j].category == firsts[j] && r[j].count == multiset(names)[firsts[j]]
    {
    }
  }

  /** Bumping a new name appends an entry with count 1. */
  lemma TallyNewName(acc: seq<CategoryCount>, init: seq<string>, last: string)
    requires Tallies(acc, init) && last !in init
    ensures Tallies(Bump(acc, last), init + [last])
  {
    var names := init + [last];
    FirstAppearancesSpec(init);
    var firsts := FirstAppearances(init);
    assert names[..|names| - 1] == init;
    assert FirstAppearances(names) == firsts + [last];
    assert forall i, j :: 0 <= i < j < |acc| ==> acc[i].category != acc[j].category;
    forall i | 0 <= i < |acc|
      ensures acc[i].category != last
    {
      assert acc[i].category == firsts[i];
    }
    BumpSpec(acc, last);
    var r := Bump(acc, last);
    assert multiset(names) == multiset(init) + multiset{last};
    assert multiset(init)[last] == 0;
    forall j | 0 <= j < |r|
      ensures r[j].category == (firsts + [last])[j] && r[j].count == multiset(names)[(firsts + [last])[j]]
    {
    }
  }

  /** The reduce tallies every category: one entry per distinct name, in order of
      first appearance, each with the number of rows carrying that name. */
  lemma {:induction false} CategoryDistributionTallies(names: seq<string>)
    ensures Tallies(CategoryDistribution(names), names)
  {
    if names != [] {
      var init := names[..|names| - 1];
      var last := names[|names| - 1];
      assert names == init + [last];
      CategoryDistributionTallies(init);
      if last in init {
        TallyKnownName(CategoryDistribution(init), init, last);
      } else {
        TallyNewName(CategoryDistribution(init), init, last);
      }
    }
  }

  /** The entries have distinct names and their counts add up to the number of rows. */
  lemma CategoryDistributionTotal(names: seq<string>)
    ensures var d := CategoryDistribution(names);
            && (forall i, j :: 0 <= i < j < |d| ==> d[i].category != d[j].category)
            && SumCounts(d) == |names|
  {
    CategoryDistributionTallies(names);
    FirstAppearancesSpec(names);
    DistributionSum(names);
  }

  function SumCounts(acc: seq<CategoryCount>): nat {
    if acc == [] then 0 else acc[0].count + SumCounts(acc[1..])
  }

  lemma {:induction false} BumpAddsOne(acc: seq<CategoryCount>, name: string)
    ensures SumCounts(Bump(acc, name)) == SumCounts(acc) + 1
  {
    if acc != [] && acc[0].category != name {
      BumpAddsOne(acc[1..], name);
      assert Bump(acc, name)[1..] == Bump(acc[1..], name);
    } else if acc != [] {
      assert Bump(acc, name)[1..] == acc[1..];
    }
  }

  lemma {:induction false} DistributionSum(names: seq<string>)
    ensures SumCounts(CategoryDistribution(names)) == |names|
  {
    if names != [] {
      DistributionSum(names[..|names| - 1]);
      BumpAddsOne(CategoryDistribution(names[..|names| - 1]), names[|names| - 1]);
    }
  }

  datatype Stats = Stats(
    totalArtworks: nat,
    totalViews: int,
    totalFavorites: nat,
    viewsOverTime: seq<Point>,
    favoritesOverTime: seq<Point>,
    categoryDistribution: seq<CategoryCount>)

  /** The statistics of `GET /api/user/profile` from its six query results (`None` = the
      query failed).  The artwork, views-over-time, favorites-over-time and category
      queries rethrow their errors (`None` result, answered with 500); a failed views or
      favorites query only reads as zero. */
  function ProfileStats(artworkIds: Option<seq<string>>, views: Option<seq<Option<int>>>,
                        favorites: Option<seq<string>>, viewRows: Option<seq<ViewRow>>,
                        favoriteDates: Option<seq<string>>, categoryNames: Option<seq<string>>): (r: Option<Stats>)
    ensures r.Some? <==> artworkIds.Some? && viewRows.Some? && favoriteDates.Some? && categoryNames.Some?
    ensures r.Some? ==>
              && r.value.totalArtworks == |artworkIds.value|
              && r.value.totalViews == (if views.Some? then SumViews(views.value) else 0)
              && r.value.totalFavorites == (if favorites.Some? then |favorites.value| else 0)
              && Tallies(r.value.categoryDistribution, categoryNames.value)
              && SumCounts(r.value.categoryDistribution) == |categoryNames.value|
              && r.value.viewsOverTime == ViewsOverTime(viewRows.value)
              && r.value.favoritesOverTime == FavoritesOverTime(favoriteDates.value)
              && SumPoints(r.value.viewsOverTime) == SumViews(ViewCounts(viewRows.value))
              && SumPoints(r.value.favoritesOverTime) == |favoriteDates.value|
  {
    if artworkIds.None? || viewRows.None? || favoriteDates.None? || categoryNames.None? then None
    else
      CategoryDistributionTallies(categoryNames.value);
      DistributionSum(categoryNames.value);
      ViewsChartMatchesTotal(viewRows.value);
      FavoritesChartMatchesTotal(favoriteDates.value);
      Some(Stats(
        |artworkIds.value|,
        if views.Some? then SumViews(views.value) else 0,
        if favorites.Some? then |favorites.value| else 0,
        ViewsOverTime(viewRows.value),
        FavoritesOverTime(favoriteDates.value),
        CategoryDistribution(categoryNames.value)))
  }

  // ---------------------------------------------------------------------
  // Change password.
  // ---------------------------------------------------------------------

  const MinPasswordLength: nat := 8

  /** `POST /change-password`.  `currentOk` is the outcome of signing in with the current
      password, `updateOk` that of the password update.  A missing new password (with a
      missing confirmation) fails on `.length` and is answered with 500. */
  function ChangePassword(newPassword: Option<string>, confirmPassword: Option<string>, currentOk: bool, updateOk: bool): (r: Response)
    ensures r.status == 200 <==>
              && newPassword == confirmPassword && newPassword.Some?
              && |newPassword.value| >= MinPasswordLength && currentOk && updateOk
    ensures newPassword != confirmPassword ==> r == Reject(400, PasswordMismatch)
    ensures newPassword == confirmPassword && newPassword.Some? && |newPassword.value| < MinPasswordLength ==>
              r == Reject(400, PasswordTooShort)
    ensures newPassword == confirmPassword && newPassword.None? ==> r == InternalError()
    ensures newPassword == confirmPassword && newPassword.Some? && |newPassword.value| >= MinPasswordLength ==>
              && (!currentOk ==> r == Reject(400, WrongCurrentPassword))
              && (currentOk && !updateOk ==> r == InternalError())
              && (currentOk && updateOk ==> r == Ok(PasswordUpdated))
  {
    if newPassword != confirmPassword then Reject(400, PasswordMismatch)
    else if newPassword.None? then InternalError()
    else if |newPassword.value| < MinPasswordLength then Reject(400, PasswordTooShort)
    else if !currentOk then Reject(400, WrongCurrentPassword)
    else if !updateOk then InternalError()
    else Ok(PasswordUpdated)
  }

  /** Both validation checks come before the current password is tried: a mismatched or
      short new password gets the same answer whatever the sign-in and update would do. */
  lemma ValidationPrecedesSignIn(newPassword: Option<string>, confirmPassword: Option<string>,
                                 currentOk1: bool, updateOk1: bool, currentOk2: bool, updateOk2: bool)
    requires newPassword != confirmPassword || (newPassword.Some? && |newPassword.value| < MinPasswordLength)
    ensures ChangePassword(newPassword, confirmPassword, currentOk1, updateOk1)
              == ChangePassword(newPassword, confirmPassword, currentOk2, updateOk2)
    ensures ChangePassword(newPassword, confirmPassword, currentOk1, updateOk1).status == 400
  {
  }

  // ---------------------------------------------------------------------
  // Profile update.
  // ---------------------------------------------------------------------

  datatype UserRow = UserRow(fullName: Option<string>, bio: Option<string>, location: Option<string>,
                             avatarUrl: Option<string>, updatedAt: Millis)

  /** The update object: `fullName == None` means the key's value is `undefined`, so it is
      left out of the update; `bio` and `location` of `None` are written as `null`. */
  datatype ProfileChanges = ProfileChanges(fullName: Option<string>, bio: Option<string>, location: Option<string>, updatedAt: Millis)

  /** `fullName || req.user.full_name`, `bio || null`, `location || null`.  The session
      user built by the authentication middleware has no `full_name`, so the fallback is
      `undefined`. */
  function ChangesFor(fullName: Option<string>, bio: Option<string>, location: Option<string>, now: Millis): ProfileChanges {
    ProfileChanges(
      if Truthy(fullName) then fullName else None,
      if Truthy(bio) then bio else None,
      if Truthy(location) then location else None,
      now)
  }

  function Apply(u: UserRow, c: ProfileChanges): UserRow {
    u.(fullName := if c.fullName.Some? then c.fullName else u.fullName, bio := c.bio, location := c.location, updatedAt := c.updatedAt)
  }

  /** `POST /profile` without an avatar file, when the update succeeds. */
  function UpdateProfile(u: UserRow, fullName: Option<string>, bio: Option<string>, location: Option<string>, now: Millis): (r: UserRow)
    ensures r.fullName == (if Truthy(fullName) then fullName else u.fullName)
    ensures r.bio == (if Truthy(bio) then bio else None)
    ensures r.location == (if Truthy(location) then location else None)
    ensures r.avatarUrl == u.avatarUrl
    ensures r.updatedAt == now
  {
    Apply(u, ChangesFor(fullName, bio, location, now))
  }

  /** `POST /profile` without an avatar file.  A failed update throws and is answered with
      500, and the row stays as it was; a successful one echoes the stored name and avatar. */
  function SubmitProfile(u: UserRow, fullName: Option<string>, bio: Option<string>, location: Option<string>,
                         now: Millis, writeOk: bool): (r: (Response, UserRow))
    ensures r.0.status == 200 <==> writeOk
    ensures !writeOk ==> r == (InternalError(), u)
    ensures writeOk ==> && r.1 == UpdateProfile(u, fullName, bio, location, now)
                        && r.1.updatedAt == now
                        && r.0.reply == ProfileUpdated(r.1.fullName, u.avatarUrl)
  {
    if !writeOk then (InternalError(), u)
    else
      var stored := UpdateProfile(u, fullName, bio, location, now);
      (Ok(ProfileUpdated(stored.fullName, stored.avatarUrl)), stored)
  }

  /** Submitting the same form twice stores what submitting it once stores, and a blank
      name never erases the stored one. */
  lemma UpdateProfileIdempotent(u: UserRow, fullName: Option<string>, bio: Option<string>, location: Option<string>, now: Millis)
    ensures var once := UpdateProfile(u, fullName, bio, location, now);
            && UpdateProfile(once, fullName, bio, location, now) == once
            && (Truthy(u.fullName) ==> Truthy(once.fullName))
  {
  }
}

=== FILE: scheduler.dfy ===
/**
  The background finalization tick: fetch every auction that is `active`
  and past its end time, then for each one transfer the artwork to the
  leading bidder (if any) and mark the auction `completed`.  A failed
  transfer skips that auction's status write; nothing stops the batch.
 */
module Scheduler {
  import opened JsValues
  import opened Store

  /** The tick's query: `status = 'active'` and `end_time <= now`. */
  predicate IsDue(a: Auction, now: Millis) {
    a.status == Active && a.endTime <= now
  }

  /** Which writes the store rejects during one tick: ownership writes by
      artwork id, status writes by auction id.  Every other write succeeds. */
  datatype Failures = Failures(transfers: set<ArtworkId>, statuses: set<AuctionId>)

  /** What the tick logs about the transfer step of one auction. */
  datatype Transfer = NoWinner | TransferredTo(winner: UserId) | TransferFailed

  /** What the tick logs about one auction: its transfer and whether the status write landed. */
  datatype StepLog = StepLog(auctionId: AuctionId, transfer: Transfer, completed: bool)

  datatype TickReport = FetchFailed | NothingDue | Processed(steps: seq<StepLog>)

  datatype TickResult = TickResult(db: Db, report: TickReport)

  predicate NoDuplicates(listing: seq<ArtworkId>) {
    forall i, j :: 0 <= i < j < |listing| ==> listing[i] != listing[j]
  }

  /** `listing` is the order in which the store returns the auction rows: every row exactly once. */
  predicate Enumerates(listing: seq<ArtworkId>, db: Db) {
    && NoDuplicates(listing)
    && (forall k :: k in listing ==> k in db.auctions)
    && (forall k :: k in db.auctions ==> k in listing)
  }

  /** The rows the tick's query returns, in listing order. */
  function Fetch(db: Db, now: Millis, listing: seq<ArtworkId>): (batch: seq<Auction>)
    ensures |batch| <= |listing|
    ensures forall i :: 0 <= i < |batch| ==> IsDue(batch[i], now) && batch[i] in db.auctions.Values
  {
    if listing == [] then []
    else
      var rest := Fetch(db, now, listing[..|listing| - 1]);
      var k := listing[|listing| - 1];
      if k in db.auctions && IsDue(db.auctions[k], now) then rest + [db.auctions[k]] else rest
  }

  /** The status write of one auction, after its transfer step. */
  function CompleteStep(db: Db, a: Auction, now: Millis, fail: Failures, t: Transfer): (Db, StepLog) {
    if a.id in fail.statuses then (db, StepLog(a.id, t, false))
    else (CompleteById(db, a.id, now), StepLog(a.id, t, true))
  }

  /** One iteration of the loop over fetched rows; `a` is the row as fetched. */
  function ProcessOne(db: Db, a: Auction, now: Millis, fail: Failures): (r: (Db, StepLog))
    ensures r.1.auctionId == a.id
    ensures r.0.transactions == db.transactions
    ensures r.0.artworks.Keys == db.artworks.Keys && r.0.auctions.Keys == db.auctions.Keys
    ensures r.1.transfer == TransferFailed ==> r.0 == db && !r.1.completed
    ensures !Truthy(a.currentBidder) ==> r.0.artworks == db.artworks && r.1.transfer == NoWinner
  {
    if Truthy(a.currentBidder) then
      if a.artworkId in fail.transfers then (db, StepLog(a.id, TransferFailed, false))
      else
        var winner := a.currentBidder.value;
        CompleteStep(SetOwner(db, a.artworkId, winner), a, now, fail, TransferredTo(winner))
    else
      CompleteStep(db, a, now, fail, NoWinner)
  }

  /** The loop over the fetched rows; every row gets its own log entry, whatever happened before it. */
  function ProcessAll(db: Db, batch: seq<Auction>, now: Millis, fail: Failures): (r: (Db, seq<StepLog>))
    ensures |r.1| == |batch|
    ensures forall i :: 0 <= i < |batch| ==> r.1[i].auctionId == batch[i].id
    ensures r.0.transactions == db.transactions
    ensures r.0.artworks.Keys == db.artworks.Keys && r.0.auctions.Keys == db.auctions.Keys
  {
    if batch == [] then (db, [])
    else
      var (d, log) := ProcessAll(db, batch[..|batch| - 1], now, fail);
      var (d', step) := ProcessOne(d, batch[|batch| - 1], now, fail);
      (d', log + [step])
  }

  /** One run of the finalization check. */
  function Tick(db: Db, now: Millis, listing: seq<ArtworkId>, fetchOk: bool, fail: Failures): (r: TickResult)
    ensures r.db.artworks.Keys == db.artworks.Keys && r.db.auctions.Keys == db.auctions.Keys
    ensures r.db.transactions == db.transactions
    ensures !fetchOk ==> r == TickResult(db, FetchFailed)
    ensures fetchOk && Fetch(db, now, listing) == [] ==> r == TickResult(db, NothingDue)
    ensures r.report.Processed? ==>
              && |r.report.steps| == |Fetch(db, now, listing)| > 0
              && forall i :: 0 <= i < |r.report.steps| ==> r.report.steps[i].auctionId == Fetch(db, now, listing)[i].id
  {
    if !fetchOk then TickResult(db, FetchFailed)
    else
      var batch := Fetch(db, now, listing);
      if batch == [] then TickResult(db, NothingDue)
      else
        var (d, log) := ProcessAll(db, batch, now, fail);
        TickResult(d, Processed(log))
  }

  // ---------------------------------------------------------------------
  // An independent, per-row description of what a tick does.
  // ---------------------------------------------------------------------

  /** The artwork of `a` passes to its leading bidder in this tick. */
  predicate Wins(a: Auction, now: Millis, fail: Failures) {
    IsDue(a, now) && Truthy(a.currentBidder) && a.artworkId !in fail.transfers
  }

  /** The auction `a` is marked `completed` in this tick. */
  predicate Closes(a: Auction, now: Millis, fail: Failures) {
    && IsDue(a, now)
    && !(Truthy(a.currentBidder) && a.artworkId in fail.transfers)
    && a.id !in fail.statuses
  }

  /** The store once the rows under `keys` have been settled, each on its own. */
  function Settled(db: Db, now: Millis, fail: Failures, keys: set<ArtworkId>): Db {
    Db(
      map k | k in db.artworks ::
        if k in keys && k in db.auctions && Wins(db.auctions[k], now, fail)
        then db.artworks[k].(owner := db.auctions[k].currentBidder.value)
        else db.artworks[k],
      map k | k in db.auctions ::
        if k in keys && Closes(db.auctions[k], now, fail) then Close(db.auctions[k], now) else db.auctions[k],
      db.transactions)
  }

  lemma SettledNothing(db: Db, now: Millis, fail: Failures)
    ensures Settled(db, now, fail, {}) == db
  {
    var s := Settled(db, now, fail, {});
    assert s.artworks == db.artworks;
    assert s.auctions == db.auctions;
  }

  /** Adding a row that is absent or not due to the settled set changes nothing. */
  lemma SettledSkips(db: Db, now: Millis, fail: Failures, keys: set<ArtworkId>, k: ArtworkId)
    requires k !in db.auctions || !IsDue(db.auctions[k], now)
    ensures Settled(db, now, fail, keys + {k}) == Settled(db, now, fail, keys)
  {
    var s1 := Settled(db, now, fail, keys + {k});
    var s0 := Settled(db, now, fail, keys);
    assert s1.artworks == s0.artworks;
    assert s1.auctions == s0.auctions;
  }

  /** The ownership table after settling one more due row whose transfer is not rejected. */
  lemma SettleOwnerStep(db: Db, now: Millis, fail: Failures, keys: set<ArtworkId>, k: ArtworkId)
    requires WellFormed(db)
    requires k in db.auctions && k !in keys && IsDue(db.auctions[k], now)
    requires !(Truthy(db.auctions[k].currentBidder) && k in fail.transfers)
    ensures var a := db.auctions[k];
            var e := Settled(db, now, fail, keys);
            Settled(db, now, fail, keys + {k}).artworks
              == if Truthy(a.currentBidder) then SetOwner(e, k, a.currentBidder.value).artworks else e.artworks
  {
    var a := db.auctions[k];
    var e := Settled(db, now, fail, keys);
    var goal := Settled(db, now, fail, keys + {k});
    var moved := if Truthy(a.currentBidder) then SetOwner(e, k, a.currentBidder.value).artworks else e.artworks;
    assert a.artworkId == k;
    assert goal.artworks.Keys == moved.Keys;
    forall j | j in goal.artworks
      ensures goal.artworks[j] == moved[j]
    {
    }
  }

  /** The auction table after settling one more due row whose transfer is not rejected. */
  lemma SettleStatusStep(db: Db, now: Millis, fail: Failures, keys: set<ArtworkId>, k: ArtworkId)
    requires WellFormed(db)
    requires k in db.auctions && k !in keys && IsDue(db.auctions[k], now)
    requires !(Truthy(db.auctions[k].currentBidder) && k in fail.transfers)
    ensures var a := db.auctions[k];
            var e := Settled(db, now, fail, keys);
            Settled(db, now, fail, keys + {k}).auctions
              == if a.id in fail.statuses then e.auctions else CompleteById(e, a.id, now).auctions
  {
    var a := db.auctions[k];
    var e := Settled(db, now, fail, keys);
    var goal := Settled(db, now, fail, keys + {k});
    assert a.artworkId == k;
    if a.id in fail.statuses {
      assert goal.auctions == e.auctions;
    } else {
      var written := CompleteById(e, a.id, now).auctions;
      forall j | j in goal.auctions
        ensures goal.auctions[j] == written[j]
      {
        if j != k {
          assert db.auctions[j].id != a.id;
          assert e.auctions[j].id == db.auctions[j].id;
        }
      }
      assert goal.auctions == written;
    }
  }

  /** Settling a due row whose transfer is rejected changes nothing. */
  lemma SettleRejectedStep(db: Db, now: Millis, fail: Failures, keys: set<ArtworkId>, k: ArtworkId)
    requires WellFormed(db)
    requires k in db.auctions && k !in keys
    requires Truthy(db.auctions[k].currentBidder) && k in fail.transfers
    ensures Settled(db, now, fail, keys + {k}) == Settled(db, now, fail, keys)
  {
    var e := Settled(db, now, fail, keys);
    var goal := Settled(db, now, fail, keys + {k});
    assert db.auctions[k].artworkId == k;
    assert goal.artworks == e.artworks;
    assert goal.auctions == e.auctions;
  }

  /** Processing one more due row settles exactly that row. */
  lemma StepSettles(db: Db, now: Millis, fail: Failures, keys: set<ArtworkId>, k: ArtworkId)
    requires WellFormed(db)
    requires k in db.auctions && k !in keys && IsDue(db.auctions[k], now)
    ensures ProcessOne(Settled(db, now, fail, keys), db.auctions[k], now, fail).0 == Settled(db, now, fail, keys + {k})
  {
    var a := db.auctions[k];
    assert a.artworkId == k;
    if Truthy(a.currentBidder) && k in fail.transfers {
      SettleRejectedStep(db, now, fail, keys, k);
    } else {
      SettleOwnerStep(db, now, fail, keys, k);
      SettleStatusStep(db, now, fail, keys, k);
    }
  }

  /** The loop over the fetched rows settles exactly the rows of the listing. */
  lemma {:induction false} ProcessAllSettles(db: Db, now: Millis, listing: seq<ArtworkId>, fail: Failures)
    requires WellFormed(db)
    requires NoDuplicates(listing)
    ensures ProcessAll(db, Fetch(db, now, listing), now, fail).0 == Settled(db, now, fail, set k | k in listing)
  {
    if listing == [] {
      assert (set k | k in listing) == {};
      SettledNothing(db, now, fail);
    } else {
      var init := listing[..|listing| - 1];
      var k := listing[|listing| - 1];
      ListingSnoc(listing);
      ProcessAllSettles(db, now, init, fail);
      var keys := set j | j in init;
      FetchSnoc(db, now, init, k);
      assert init + [k] == listing;
      if k in db.auctions && IsDue(db.auctions[k], now) {
        ProcessSnoc(db, Fetch(db, now, init), db.auctions[k], now, fail);
        StepSettles(db, now, fail, keys, k);
      } else {
        SettledSkips(db, now, fail, keys, k);
      }
    }
  }

  /** Dropping the last entry of a listing without duplicates drops exactly its key. */
  lemma ListingSnoc(listing: seq<ArtworkId>)
    requires NoDuplicates(listing) && listing != []
    ensures var init := listing[..|listing| - 1];
            var k := listing[|listing| - 1];
            && NoDuplicates(init)
            && k !in (set j | j in init)
            && (set j | j in listing) == (set j | j in init) + {k}
  {
    var init := listing[..|listing| - 1];
    assert listing == init + [listing[|listing| - 1]];
  }

  /** The query on a listing with one more key returns that key's row last, when it is due. */
  lemma FetchSnoc(db: Db, now: Millis, init: seq<ArtworkId>, k: ArtworkId)
    ensures Fetch(db, now, init + [k])
              == if k in db.auctions && IsDue(db.auctions[k], now) then Fetch(db, now, init) + [db.auctions[k]] else Fetch(db, now, init)
  {
    assert (init + [k])[..|init|] == init;
  }

  /** The loop over one more row ends with that row's step. */
  lemma ProcessSnoc(db: Db, batch: seq<Auction>, a: Auction, now: Millis, fail: Failures)
    ensures ProcessAll(db, batch + [a], now, fail).0 == ProcessOne(ProcessAll(db, batch, now, fail).0, a, now, fail).0
  {
    assert (batch + [a])[..|batch|] == batch;
  }

  /** A due row of the listing is among the fetched rows. */
  lemma {:induction false} FetchFinds(db: Db, now: Millis, listing: seq<ArtworkId>, k: ArtworkId)
    requires k in listing && k in db.auctions && IsDue(db.auctions[k], now)
    ensures db.auctions[k] in Fetch(db, now, listing)
  {
    var init := listing[..|listing| - 1];
    if listing[|listing| - 1] != k {
      assert listing == init + [listing[|listing| - 1]];
      FetchFinds(db, now, init, k);
    }
  }

  /** For a listing of every row, one tick leaves the store settled on every auction. */
  lemma TickSettles(db: Db, now: Millis, listing: seq<ArtworkId>, fail: Failures)
    requires WellFormed(db)
    requires Enumerates(listing, db)
    ensures Tick(db, now, listing, true, fail).db == Settled(db, now, fail, db.auctions.Keys)
  {
    assert (set k | k in listing) == db.auctions.Keys;
    if Fetch(db, now, listing) == [] {
      forall k | k in db.auctions
        ensures !IsDue(db.auctions[k], now)
      {
        if IsDue(db.auctions[k], now) {
          FetchFinds(db, now, listing, k);
        }
      }
      var s := Settled(db, now, fail, db.auctions.Keys);
      assert s.artworks == db.artworks;
      assert s.auctions == db.auctions;
    } else {
      ProcessAllSettles(db, now, listing, fail);
    }
  }

  // ---------------------------------------------------------------------
  // What a tick guarantees, row by row.
  // ---------------------------------------------------------------------

  /** Rows that are not both `active` and expired are never written, and
      neither is any artwork whose auction is not due. */
  lemma TickLeavesUndueAlone(db: Db, now: Millis, listing: seq<ArtworkId>, fail: Failures, k: ArtworkId)
    requires WellFormed(db) && Enumerates(listing, db)
    requires k !in db.auctions || !IsDue(db.auctions[k], now)
    ensures var r := Tick(db, now, listing, true, fail).db;
            && (k in db.auctions ==> k in r.auctions && r.auctions[k] == db.auctions[k])
            && (k in db.artworks ==> k in r.artworks && r.artworks[k] == db.artworks[k])
  {
    TickSettles(db, now, listing, fail);
  }

  /** A due auction with a leading bidder and a successful transfer hands the
      artwork to exactly that bidder, and is completed unless its status write fails. */
  lemma TickTransfersToWinner(db: Db, now: Millis, listing: seq<ArtworkId>, fail: Failures, k: ArtworkId)
    requires WellFormed(db) && Enumerates(listing, db)
    requires k in db.auctions && IsDue(db.auctions[k], now)
    requires Truthy(db.auctions[k].currentBidder) && k !in fail.transfers
    ensures var r := Tick(db, now, listing, true, fail).db;
            && (k in db.artworks ==> r.artworks[k] == db.artworks[k].(owner := db.auctions[k].currentBidder.value))
            && r.auctions[k].status == (if db.auctions[k].id in fail.statuses then Active else Completed)
  {
    TickSettles(db, now, listing, fail);
  }

  /** A failed ownership write skips the status write: the row stays `active`,
      the artwork keeps its owner, and every later tick selects the row again. */
  lemma TickRetriesFailedTransfer(db: Db, now: Millis, listing: seq<ArtworkId>, fail: Failures, k: ArtworkId, later: Millis)
    requires WellFormed(db) && Enumerates(listing, db)
    requires k in db.auctions && IsDue(db.auctions[k], now)
    requires Truthy(db.auctions[k].currentBidder) && k in fail.transfers
    requires now <= later
    ensures var r := Tick(db, now, listing, true, fail).db;
            && r.auctions[k] == db.auctions[k]
            && IsDue(r.auctions[k], later)
            && (k in db.artworks ==> r.artworks[k] == db.artworks[k])
  {
    TickSettles(db, now, listing, fail);
  }

  /** A due auction without a leading bidder leaves the owner alone and is still completed. */
  lemma TickClosesUnsold(db: Db, now: Millis, listing: seq<ArtworkId>, fail: Failures, k: ArtworkId)
    requires WellFormed(db) && Enumerates(listing, db)
    requires k in db.auctions && IsDue(db.auctions[k], now)
    requires !Truthy(db.auctions[k].currentBidder) && db.auctions[k].id !in fail.statuses
    ensures var r := Tick(db, now, listing, true, fail).db;
            && r.auctions[k] == Close(db.auctions[k], now)
            && (k in db.artworks ==> r.artworks[k] == db.artworks[k])
  {
    TickSettles(db, now, listing, fail);
  }

  /** Failures are isolated: two ticks whose failures agree about one auction
      leave that auction and its artwork in the same state, whatever fails elsewhere. */
  lemma TickIsolatesFailures(db: Db, now: Millis, listing: seq<ArtworkId>, fail1: Failures, fail2: Failures, k: ArtworkId)
    requires WellFormed(db) && Enumerates(listing, db)
    requires k in db.auctions
    requires k in fail1.transfers <==> k in fail2.transfers
    requires db.auctions[k].id in fail1.statuses <==> db.auctions[k].id in fail2.statuses
    ensures var r1 := Tick(db, now, listing, true, fail1).db;
            var r2 := Tick(db, now, listing, true, fail2).db;
            && r1.auctions[k] == r2.auctions[k]
            && (k in db.artworks ==> r1.artworks[k] == r2.artworks[k])
  {
    TickSettles(db, now, listing, fail1);
    TickSettles(db, now, listing, fail2);
  }

  /** A tick keeps the store well formed, writes no `ended_early` status and records no transaction. */
  lemma TickPreservesInvariants(db: Db, now: Millis, listing: seq<ArtworkId>, fetchOk: bool, fail: Failures)
    requires WellFormed(db) && Enumerates(listing, db) && NoEndedEarly(db)
    ensures var r := Tick(db, now, listing, fetchOk, fail).db;
            && WellFormed(r) && NoEndedEarly(r)
            && r.artworks.Keys == db.artworks.Keys && r.auctions.Keys == db.auctions.Keys
            && r.transactions == db.transactions
  {
    if fetchOk {
      TickSettles(db, now, listing, fail);
    }
  }

  /** Both writes are plain assignments, so running an auction's step again
      (with both writes succeeding) ends where a single successful run ends,
      whatever the earlier run managed to write. */
  lemma ProcessOneIdempotent(db: Db, a: Auction, now1: Millis, now2: Millis, fail: Failures)
    ensures var once := ProcessOne(db, a, now2, Failures({}, {})).0;
            var twice := ProcessOne(ProcessOne(db, a, now1, fail).0, a, now2, Failures({}, {})).0;
            twice == once
  {
    var none := Failures({}, {});
    var first := ProcessOne(db, a, now1, fail).0;
    var once := ProcessOne(db, a, now2, none).0;
    var twice := ProcessOne(first, a, now2, none).0;
    assert twice.transactions == once.transactions;
    assert first.artworks.Keys == db.artworks.Keys;
    assert twice.artworks == once.artworks;
    forall j | j in db.auctions
      ensures j in first.auctions && first.auctions[j].id == db.auctions[j].id
    {
    }
    assert first.auctions.Keys == db.auctions.Keys;
    assert twice.auctions == once.auctions;
  }
}

=== FILE: store.dfy ===
/**
  The rows the auction core reads and writes, and the single-statement
  writes it issues against them.  The hosted store is a pair of maps keyed
  by artwork id (auctions are always looked up by `artwork_id` with
  `.single()`, so at most one auction row per artwork is representable)
  plus the append-only `artwork_transactions` table.
 */
module Store {
  import opened JsValues

  type UserId = string
  type ArtworkId = string
  type AuctionId = string

  /** Money as a real number of dollars; floating-point rounding is not modelled. */
  type Money = real

  /** An instant, in milliseconds. */
  type Millis = int

  /** One day, as the handlers write it: `24 * 60 * 60 * 1000` milliseconds. */
  const DayMillis: nat := 24 * 60 * 60 * 1000

  /** One hour: `60 * 60 * 1000` milliseconds. */
  const HourMillis: nat := 60 * 60 * 1000

  /** The `status` column of `auctions`.  `EndedEarly` is read by the manual
      finish check but no handler ever writes it. */
  datatype Status = Active | Completed | EndedEarly

  datatype Auction = Auction(
    id: AuctionId,
    artworkId: ArtworkId,
    startingBid: Option<Money>,
    currentBid: Option<Money>,
    currentBidder: Option<UserId>,
    endTime: Millis,
    status: Status,
    buyNowPrice: Option<Money>,
    updatedAt: Millis)

  /** An `artworks` row; `owner` is the `user_id` column. */
  datatype Artwork = Artwork(
    id: ArtworkId,
    owner: UserId,
    storagePath: Option<string>,
    updatedAt: Millis)

  /** An `artwork_transactions` row written after a paid checkout. */
  datatype Transaction = Transaction(
    artworkId: ArtworkId,
    sellerId: UserId,
    buyerId: UserId,
    amount: Money,
    date: Millis)

  datatype Db = Db(
    artworks: map<ArtworkId, Artwork>,
    auctions: map<ArtworkId, Auction>,
    transactions: seq<Transaction>)

  /** Rows sit under their own keys and auction ids (primary keys) are unique. */
  predicate WellFormed(db: Db) {
    && (forall k :: k in db.artworks ==> db.artworks[k].id == k)
    && (forall k :: k in db.auctions ==> db.auctions[k].artworkId == k)
    && (forall k1, k2 :: k1 in db.auctions && k2 in db.auctions && db.auctions[k1].id == db.auctions[k2].id ==> k1 == k2)
  }

  /** No row carries the `ended_early` status. */
  predicate NoEndedEarly(db: Db) {
    forall k :: k in db.auctions ==> db.auctions[k].status != EndedEarly
  }

  /** `update artworks set user_id = owner where id = k`; matches no row when k is absent. */
  function SetOwner(db: Db, k: ArtworkId, owner: UserId): Db {
    if k in db.artworks then db.(artworks := db.artworks[k := db.artworks[k].(owner := owner)]) else db
  }

  /** The auction row after `update auctions set status = 'completed', updated_at = now`. */
  function Close(a: Auction, now: Millis): Auction {
    a.(status := Completed, updatedAt := now)
  }

  /** The status write keyed by the auction's primary key, as the scheduler issues it. */
  function CompleteById(db: Db, id: AuctionId, now: Millis): Db {
    db.(auctions := map k | k in db.auctions :: if db.auctions[k].id == id then Close(db.auctions[k], now) else db.auctions[k])
  }

  /** The status write keyed by `artwork_id`, as the manual finish issues it; the
      auction map's key is the `artwork_id` column, so this is the row under `k`. */
  function CompleteByArtwork(db: Db, k: ArtworkId, now: Millis): Db {
    if k in db.auctions then db.(auctions := db.auctions[k := Close(db.auctions[k], now)]) else db
  }

  /** In a well-formed store both ways of addressing the status write hit the same single row. */
  lemma CompleteWritesAgree(db: Db, k: ArtworkId, now: Millis)
    requires WellFormed(db)
    requires k in db.auctions
    ensures CompleteById(db, db.auctions[k].id, now) == CompleteByArtwork(db, k, now)
  {
    var byId := CompleteById(db, db.auctions[k].id, now);
    var byArt := CompleteByArtwork(db, k, now);
    forall j | j in db.auctions
      ensures byId.auctions[j] == byArt.auctions[j]
    {
      if j != k {
        assert db.auctions[j].id != db.auctions[k].id;
      }
    }
    assert byId.auctions == byArt.auctions;
  }
}

=== FILE: webhook.dfy ===
/**
  The payment-processor webhook, `POST /stripe/webhook`: a verified
  `checkout.session.completed` event for a paid session with complete
  metadata reassigns the artwork to the buyer and, only after that write
  succeeds, records the sale.  Store failures are swallowed.
 */
module Webhook {
  import opened JsValues
  import opened Store
  import opened Http

  const CheckoutCompleted: string := "checkout.session.completed"
  const Paid: string := "paid"

  /** The session's `metadata`; a `null` metadata object reads as all three absent. */
  datatype Metadata = Metadata(artworkId: Option<string>, sellerId: Option<string>, buyerId: Option<string>)

  /** `amountTotal` is the session total in cents. */
  datatype Session = Session(paymentStatus: string, metadata: Metadata, amountTotal: int)

  datatype Event = Event(kind: string, session: Session)

  /** All three metadata fields are present and non-empty. */
  predicate Complete(m: Metadata) {
    Truthy(m.artworkId) && Truthy(m.sellerId) && Truthy(m.buyerId)
  }

  /** The event is one the handler acts on. */
  predicate Actionable(e: Event) {
    e.kind == CheckoutCompleted && Complete(e.session.metadata) && e.session.paymentStatus == Paid
  }

  /** The dollar amount recorded for a session total given in cents. */
  function Dollars(cents: int): Money {
    cents as real / 100.0
  }

  /** The row inserted into `artwork_transactions` for an actionable event. */
  function SaleRecord(e: Event, now: Millis): Transaction
    requires Complete(e.session.metadata)
  {
    var m := e.session.metadata;
    Transaction(m.artworkId.value, m.sellerId.value, m.buyerId.value, Dollars(e.session.amountTotal), now)
  }

  /** `update artworks set user_id = buyer, updated_at = now where id = k`. */
  function AssignToBuyer(db: Db, k: ArtworkId, buyer: UserId, now: Millis): Db {
    if k in db.artworks then db.(artworks := db.artworks[k := db.artworks[k].(owner := buyer, updatedAt := now)]) else db
  }

  /** The database part of the handler, whose failures are caught and logged. */
  function RecordSale(db: Db, e: Event, now: Millis, ownerWriteOk: bool, insertOk: bool): Db
    requires Complete(e.session.metadata)
  {
    if !ownerWriteOk then db
    else
      var moved := AssignToBuyer(db, e.session.metadata.artworkId.value, e.session.metadata.buyerId.value, now);
      if insertOk then moved.(transactions := moved.transactions + [SaleRecord(e, now)]) else moved
  }

  /** The handler.  `secretSet` says whether the signing secret is configured; `event` is
      `None` when signature verification fails. */
  function HandleWebhook(db: Db, secretSet: bool, event: Option<Event>, now: Millis, ownerWriteOk: bool, insertOk: bool): (r: (Response, Db))
    ensures !secretSet ==> r == (InternalError(), db)
    ensures secretSet && event.None? ==> r == (Reject(400, InvalidSignature), db)
    ensures secretSet && event.Some? ==> r.0 == Ok(WebhookReceived)
    ensures r.1 != db ==> secretSet && event.Some? && Actionable(event.value) && ownerWriteOk
    ensures r.1.auctions == db.auctions
    ensures r.1.artworks.Keys == db.artworks.Keys
    ensures |r.1.transactions| == |db.transactions| + (if secretSet && event.Some? && Actionable(event.value) && ownerWriteOk && insertOk then 1 else 0)
    ensures r.1.transactions[..|db.transactions|] == db.transactions
    ensures |r.1.transactions| > |db.transactions| ==>
              var t := r.1.transactions[|db.transactions|];
              var m := event.value.session.metadata;
              && Some(t.artworkId) == m.artworkId && Some(t.sellerId) == m.sellerId && Some(t.buyerId) == m.buyerId
              && t.amount * 100.0 == event.value.session.amountTotal as real
              && t.date == now
    ensures secretSet && event.Some? && Actionable(event.value) && ownerWriteOk ==>
              var m := event.value.session.metadata;
              && (m.artworkId.value in db.artworks ==>
                    r.1.artworks[m.artworkId.value] == db.artworks[m.artworkId.value].(owner := m.buyerId.value, updatedAt := now))
              && (forall j :: j in db.artworks && j != m.artworkId.value ==> r.1.artworks[j] == db.artworks[j])
  {
    if !secretSet then (InternalError(), db)
    else if event.None? then (Reject(400, InvalidSignature), db)
    else
      var e := event.value;
      if Actionable(e) then (Ok(WebhookReceived), RecordSale(db, e, now, ownerWriteOk, insertOk))
      else (Ok(WebhookReceived), db)
  }

  /** A paid, verified checkout whose ownership write succeeds leaves the artwork
      with the buyer, stamped with the handler's clock and otherwise as it was; every
      other artwork keeps its row. */
  lemma PaidCheckoutTransfers(db: Db, e: Event, now: Millis, insertOk: bool)
    requires Actionable(e)
    ensures var r := HandleWebhook(db, true, Some(e), now, true, insertOk).1;
            var k := e.session.metadata.artworkId.value;
            && (k in db.artworks ==> r.artworks[k] == db.artworks[k].(owner := e.session.metadata.buyerId.value, updatedAt := now))
            && (forall j :: j in db.artworks && j != k ==> r.artworks[j] == db.artworks[j])
  {
  }

  /** A sale is recorded only after the ownership write went through: whenever a
      transaction row appears, the artwork (if it exists) belongs to its buyer. */
  lemma RecordImpliesTransfer(db: Db, secretSet: bool, event: Option<Event>, now: Millis, ownerWriteOk: bool, insertOk: bool)
    ensures var r := HandleWebhook(db, secretSet, event, now, ownerWriteOk, insertOk).1;
            |r.transactions| > |db.transactions| ==>
              var t := r.transactions[|db.transactions|];
              && ownerWriteOk
              && (t.artworkId in db.artworks ==> r.artworks[t.artworkId].owner == t.buyerId)
  {
  }
}
